=== FILE: README.md ===
# MCP client app: session, gateway and chat logic in Dafny

This project models the data and session logic of an Android client. The client signs a user in to a
Model Context Protocol gateway, fetches six kinds of financial data through that gateway's tools, and
lets the user chat with an agent whose answers arrive through a realtime database. The model covers:

- **`Gateway`** (`McpRepository`): the preferences store with its two keys, phone number and session
  id. Also the two-step login handshake, which stops at the first step that does not answer 2xx
  (section 15.3 of RFC 9110), and the six raw and six parsed tool fetches.
- **`McpApi`** (`McpApiService`): the request shapes. These are the bootstrap GET, the login form and
  the tool calls. A tool call is a JSON-RPC 2.0 request object (section 4 of the JSON-RPC 2.0
  Specification) invoking the Model Context Protocol's `tools/call` method.
- **`ArthaApi`** (`ArthaApiServiceImpl`): chat session ids of the form
  `session_<millis>_<15 letters>`, their validity check, and the `sendMessage` request and result.
- **`ChatModels`**: the chat records, a session's display name and last message, and the
  session list built from a user's chat map.
- **`ViewModel`** (`McpViewModel`): a class whose fields are the observable screen state. Its methods
  are sign-in, logout, the API console call, the six data fetches and the database callbacks. Each
  method states the whole new state.
- **`ChatDetails`**, **`ChatBottomSheet`**: the logic inside the two chat screens. This covers the two
  title truncations, message order, the list entries, the auto-scroll target, the send guard, the
  New Chat id, the card preview, and the loading, empty and list choice.
- **`Transactions`**: `generateRealTransactions`, the nested loops that number bank and fund rows,
  then sort them and cut the list. It is written as imperative methods proved against a
  specification function.
- **`Navigation`**: the splash destination, the section-to-route dispatch and the screen each route
  reaches.
- Support modules:
  - `Wrappers` (Option, and Kotlin's `Result` with its nullable message);
  - `Text` (`take`, `takeLast`, `trim`, `split`, decimal rendering);
  - `Sorting` (the stable `sortedBy` and `sortedByDescending`);
  - `Http` (responses and exchanges);
  - `ApiModels` (the response records).

Kotlin maps keep insertion order, and the code depends on that order: `maxByOrNull` keeps the first of
equal keys, and `sortedByDescending` is stable. So maps are association lists in iteration order.
A network call is an input `Exchange`: either an answer (status code and optional body) or a thrown
exception with its nullable message. Gson decoding is a function parameter that returns `Ok(record)`,
`Null` (Gson's answer for a blank document or the literal `null`) or `Malformed(detail)`. The clock and the random letter source are parameters.

## Model

| member | source | states |
|---|---|---|
| Text.Take | app/src/main/java/com/example/mcpclient/data/models/ChatModels.kt:27 | `take(n)` gives a prefix of the input of length `min(n, size)` |
| Text.TakeLast | app/src/main/java/com/example/mcpclient/presentation/components/ChatBottomSheet.kt:258 | `takeLast(n)` gives the suffix of the input of length `min(n, size)` |
| Text.RemovePrefix | app/src/main/java/com/example/mcpclient/presentation/navigation/McpNavigation.kt:67 | if the string starts with the prefix, the prefix plus the result is the string; otherwise the string is returned unchanged |
| Text.TrimStart | app/src/main/java/com/example/mcpclient/presentation/screens/ChatDetailsScreen.kt:151 | the result is a suffix of the input that does not start with whitespace, and everything cut off is whitespace |
| Text.TrimEnd | app/src/main/java/com/example/mcpclient/presentation/screens/ChatDetailsScreen.kt:151 | the result is a prefix of the input that does not end with whitespace, and everything cut off is whitespace |
| Text.TrimEmptyIffBlank | app/src/main/java/com/example/mcpclient/presentation/screens/ChatDetailsScreen.kt:151 | `trim()` is empty exactly when the string is blank (both directions) |
| Text.Split | app/src/main/java/com/example/mcpclient/data/models/ChatModels.kt:25 | `split` always gives at least one piece |
| Text.JoinSplit | app/src/main/java/com/example/mcpclient/data/models/ChatModels.kt:25 | joining the pieces of `split` back with the delimiter gives the original string |
| Text.SplitPartsAvoidSep | app/src/main/java/com/example/mcpclient/data/models/ChatModels.kt:25 | no piece of `split` contains the delimiter |
| Text.SplitWithoutSep | app/src/main/java/com/example/mcpclient/data/models/ChatModels.kt:25 | a string that does not contain the delimiter splits into itself alone |
| Text.SplitAround | app/src/main/java/com/example/mcpclient/data/models/ChatModels.kt:25 | splitting `a + sep + b` gives the pieces of `a` followed by the pieces of `b` |
| Text.SplitAroundTwo | app/src/main/java/com/example/mcpclient/data/models/ChatModels.kt:25-26 | splitting `a + sep + b + sep + c` gives the pieces of the three sides in order |
| Text.SplitSingleIff | app/src/main/java/com/example/mcpclient/data/models/ChatModels.kt:25-26 | `split` gives exactly one piece if and only if the delimiter does not occur |
| Text.NatToString | app/src/main/java/com/example/mcpclient/data/api/ArthaApiServiceImpl.kt:82 | the decimal rendering of the timestamp is non-empty, all digits, and has no leading zero unless the number is 0 |
| Text.ParseNatToString | app/src/main/java/com/example/mcpclient/data/api/ArthaApiServiceImpl.kt:82 | reading the decimal rendering back gives the number |
| Text.NatToStringInjective | app/src/main/java/com/example/mcpclient/data/api/ArthaApiServiceImpl.kt:80-82 | different timestamps render as different digit strings |
| Sorting.Insert | app/src/main/java/com/example/mcpclient/presentation/screens/ChatDetailsScreen.kt:119 | inserting into a key-sorted list keeps it sorted and adds exactly that element (multiset) |
| Sorting.SortBy | app/src/main/java/com/example/mcpclient/presentation/screens/ChatDetailsScreen.kt:119 | `sortedBy` returns a permutation of its input that is sorted by ascending key |
| Sorting.SortByDescending | app/src/main/java/com/example/mcpclient/data/models/ChatModels.kt:56 | `sortedByDescending` returns a permutation of its input whose keys never increase |
| Sorting.SortByStable | app/src/main/java/com/example/mcpclient/presentation/screens/ChatDetailsScreen.kt:119 | `sortedBy` is stable: for every key, the elements with that key come out in the order they went in |
| Sorting.SortByDescendingStable | app/src/main/java/com/example/mcpclient/data/models/ChatModels.kt:56 | `sortedByDescending` is stable: for every key, the elements with that key come out in the order they went in |
| Sorting.SortDescendingOfIncreasing | app/src/main/java/com/example/mcpclient/presentation/screens/TransactionsScreen.kt:437 | a list whose keys strictly increase, such as the id-numbered items, sorts descending into exactly its reverse |
| Sorting.SortOfStrictlyDecreasing | app/src/main/java/com/example/mcpclient/presentation/screens/TransactionsScreen.kt:437 | a list whose keys strictly decrease sorts ascending into exactly its reverse |
| McpApi.ToolNamed | app/src/main/java/com/example/mcpclient/data/repository/McpRepository.kt:95-97 | a recognised `params.name` is the name of the tool it designates |
| McpApi.ToolNamedInverse | app/src/main/java/com/example/mcpclient/data/repository/McpRepository.kt:95-97 | each tool's name designates that tool again, so the six names are distinct |
| McpApi.ToolRequest | app/src/main/java/com/example/mcpclient/data/api/McpApiService.kt:65-75 | a request built from the params alone is a JSON-RPC 2.0 request (`jsonrpc` "2.0", id 1, method `tools/call`) naming exactly that tool, with no arguments |
| McpApi.SessionBootstrapCall | app/src/main/java/com/example/mcpclient/data/api/McpApiService.kt:10-13 | the session bootstrap is a GET to `mockWebPage` whose `sessionId` query parameter is the token |
| McpApi.LoginCall | app/src/main/java/com/example/mcpclient/data/api/McpApiService.kt:15-20 | login is a form POST to `login` with fields `sessionId` and `phoneNumber` carrying the arguments |
| McpApi.ToolCall | app/src/main/java/com/example/mcpclient/data/api/McpApiService.kt:22-62 | every tool call is a POST to `mcp/stream` carrying the body, the `Mcp-Session-Id` header and a Content-Type defaulting to `application/json` |
| Gateway.StatusInHttpFailure | app/src/main/java/com/example/mcpclient/data/repository/McpRepository.kt:109-110 | the status code can be read back from any `"<step>: HTTP <code>"` failure message |
| Gateway.FetchRequestShape | app/src/main/java/com/example/mcpclient/data/repository/McpRepository.kt:94-102 | every fetch sends the constant session token (never a stored one) in a JSON-RPC `tools/call` request to `mcp/stream` naming exactly its tool |
| Gateway.FetchRaw | app/src/main/java/com/example/mcpclient/data/repository/McpRepository.kt:92-116 | succeeds exactly on a 2xx answer, with the first content item's text or "No data"; a non-2xx answer fails with a message naming that status code; an exception becomes a failure with its message |
| Gateway.FetchParsed | app/src/main/java/com/example/mcpclient/data/repository/McpRepository.kt:249-285 | a failed exchange fails; on a 2xx answer, empty or absent text fails with "Empty response received", a decoded record succeeds with it, a `null` decode succeeds with no record, and a decode error fails |
| Gateway.EmptyAndMalformedDistinct | app/src/main/java/com/example/mcpclient/data/repository/McpRepository.kt:261-276 | on a 2xx answer a parsed fetch fails with exactly "Empty response received" iff the text is empty or absent, and a decode failure instead gives a message starting "Failed to parse response: " |
| Gateway.ParsedRefinesRaw | app/src/main/java/com/example/mcpclient/data/repository/McpRepository.kt:249-285 | a parsed fetch fails with the raw fetch's message whenever the exchange failed, and a parsed success is the decoding of the raw success text |
| Gateway.AuthOutcome | app/src/main/java/com/example/mcpclient/data/repository/McpRepository.kt:46-90 | authentication succeeds with "Authentication successful" iff both steps answer 2xx; a non-2xx bootstrap or login fails naming that step's status code; an exception in either step fails with its message |
| Gateway.McpRepository.constructor | app/src/main/java/com/example/mcpclient/data/repository/McpRepository.kt:19-20 | the repository opens on the given contents of the preferences file |
| Gateway.McpRepository.IsLoggedIn | app/src/main/java/com/example/mcpclient/data/repository/McpRepository.kt:30-36 | logged in if and only if a phone number is stored |
| Gateway.McpRepository.Logout | app/src/main/java/com/example/mcpclient/data/repository/McpRepository.kt:38-44 | removes exactly the phone and session-id keys; afterwards not logged in and no stored number; a second logout changes nothing |
| Gateway.McpRepository.Authenticate | app/src/main/java/com/example/mcpclient/data/repository/McpRepository.kt:46-90 | issues the login request only after a 2xx bootstrap; only full success writes the store (the given number and the constant session token), so the stored number is the input; any failure leaves the store unchanged |
| ArthaApi.RandomSuffix | app/src/main/java/com/example/mcpclient/data/api/ArthaApiServiceImpl.kt:81 | the random part is exactly 15 letters, each in `a`..`z` |
| ArthaApi.GenerateSessionId | app/src/main/java/com/example/mcpclient/data/api/ArthaApiServiceImpl.kt:79-83 | an id starts with `session_`, then the timestamp's digits, then `_`, then exactly 15 lower-case letters |
| ArthaApi.GeneratedIdParts | app/src/main/java/com/example/mcpclient/data/api/ArthaApiServiceImpl.kt:79-83 | a generated id splits on `_` into `session`, the timestamp's digits and the 15-letter suffix |
| ArthaApi.GeneratedIdIsValid | app/src/main/java/com/example/mcpclient/data/api/ArthaApiServiceImpl.kt:79-87 | every generated id passes `isValidSessionId`, is at least 25 characters long, and its timestamp and suffix can be read back from it |
| ArthaApi.GeneratedIdsDistinct | app/src/main/java/com/example/mcpclient/data/api/ArthaApiServiceImpl.kt:79-83 | two generated ids are equal only if both the millisecond clock and all fifteen letters agree |
| ArthaApi.ValidityIsOnlyAShapeHint | app/src/main/java/com/example/mcpclient/data/api/ArthaApiServiceImpl.kt:85-87 | `isValidSessionId` accepts ids no generator produces: any `session_` followed by 13 or more characters without `_` |
| ArthaApi.SendMessageRequest | app/src/main/java/com/example/mcpclient/data/api/ArthaApiServiceImpl.kt:38-52 | the request goes to the base URL plus `/start/`, carries `user_id`, `session_id` and `query` unchanged, and sends JSON Content-Type and Accept headers |
| ArthaApi.SendMessageResult | app/src/main/java/com/example/mcpclient/data/api/ArthaApiServiceImpl.kt:29-77 | succeeds iff the answer is 2xx and the body (or "") decodes to a record, with that record; a `null` decode (a blank body) fails; a non-2xx answer fails with "API call failed: <code> ..." naming the code; an exception becomes a failure with its message |
| ChatModels.Values | app/src/main/java/com/example/mcpclient/data/models/ChatModels.kt:35 | `values` lists each entry's value in the map's iteration order |
| ChatModels.MaxIndex | app/src/main/java/com/example/mcpclient/data/models/ChatModels.kt:35 | `maxByOrNull` picks a message with the greatest timestamp, the first of several equal ones |
| ChatModels.ChatSession.GetDisplayName | app/src/main/java/com/example/mcpclient/data/models/ChatModels.kt:20-32 | a non-blank session name is returned as is; otherwise the name starts with "Chat "; it is never empty (the three id cases, by the number of `_`, are the lemmas below) |
| ChatModels.DisplayNameWithoutUnderscore | app/src/main/java/com/example/mcpclient/data/models/ChatModels.kt:25-30 | an unnamed session whose id contains no `_` is titled "Chat Session" |
| ChatModels.DisplayNameOfTwoPieces | app/src/main/java/com/example/mcpclient/data/models/ChatModels.kt:25-30 | an unnamed session whose id contains exactly one `_` is titled "Chat Session" |
| ChatModels.DisplayNameOfThreePieces | app/src/main/java/com/example/mcpclient/data/models/ChatModels.kt:25-27 | an unnamed session whose id is `a_b_c`, with no `_` in `c`, is titled "Chat " and the first eight characters of `c` |
| ChatModels.ChatSession.GetLastMessage | app/src/main/java/com/example/mcpclient/data/models/ChatModels.kt:34-36 | null iff there are no messages; otherwise one of the session's messages, with a timestamp no smaller than any other |
| ChatModels.WithIds | app/src/main/java/com/example/mcpclient/data/models/ChatModels.kt:46-48 | `mapValues` keeps the keys and order and sets each message's id to its key |
| ChatModels.GetChatSessions | app/src/main/java/com/example/mcpclient/data/models/ChatModels.kt:44-57 | the sessions are a permutation of one built session per chat, ordered by non-increasing last-message time |
| ChatModels.ChatSessionsFaithful | app/src/main/java/com/example/mcpclient/data/models/ChatModels.kt:44-56 | as many sessions as chats; every chat's session is listed; every listed session has a chat's key as id, no name, every message's id equal to its key, and the last message's time (0 when none) |
| ChatModels.ChatSessionIdsDistinct | app/src/main/java/com/example/mcpclient/data/models/ChatModels.kt:44-56 | since a map's keys are distinct, no two listed sessions share an id: each chat is listed exactly once |
| ChatModels.SameTimeSessionsKeepMapOrder | app/src/main/java/com/example/mcpclient/data/models/ChatModels.kt:56 | sessions with the same last-message time keep the order of the chats map |
| ChatModels.DisplayNameOfGeneratedId | app/src/main/java/com/example/mcpclient/data/models/ChatModels.kt:20-32 | an unnamed session with a generated id is titled "Chat " and the first eight random letters |
| ViewModel.EndpointsAreTheSixTools | app/src/main/java/com/example/mcpclient/presentation/viewmodel/McpViewModel.kt:237-244 | an endpoint label names a fetch iff it is one of the six listed endpoints, and the six run six different tools |
| ViewModel.ExecuteResult | app/src/main/java/com/example/mcpclient/presentation/viewmodel/McpViewModel.kt:237-245 | an unknown endpoint fails with "Unknown endpoint"; a known one gives its raw fetch's result |
| ViewModel.ChatsFromSnapshot | app/src/main/java/com/example/mcpclient/presentation/viewmodel/McpViewModel.kt:88-96 | an existing node that `getValue` reads as a record gives that record; a missing node, or an existing one that `getValue` reads as null, gives empty chats for that user |
| ViewModel.McpViewModel.constructor | app/src/main/java/com/example/mcpclient/presentation/viewmodel/McpViewModel.kt:130-167 | starts idle with no data, the logged-in flag read from the store, the first number "1414141414" and endpoint "Fetch Bank Transactions" selected |
| ViewModel.McpViewModel.UpdateSelectedPhoneNumber | app/src/main/java/com/example/mcpclient/presentation/viewmodel/McpViewModel.kt:178-181 | changes only the selected number |
| ViewModel.McpViewModel.UpdateSelectedEndpoint | app/src/main/java/com/example/mcpclient/presentation/viewmodel/McpViewModel.kt:183-186 | changes only the selected endpoint |
| ViewModel.McpViewModel.ClearError | app/src/main/java/com/example/mcpclient/presentation/viewmodel/McpViewModel.kt:188-190 | changes only the error, to none |
| ViewModel.McpViewModel.ClearResponse | app/src/main/java/com/example/mcpclient/presentation/viewmodel/McpViewModel.kt:192-194 | changes only the response, to none |
| ViewModel.McpViewModel.SignIn | app/src/main/java/com/example/mcpclient/presentation/viewmodel/McpViewModel.kt:196-215 | on success logs in, and the store is the old store with the selected number and the constant session token written under their keys, with no error; on failure shows the message (or "Authentication failed") and leaves the flag and the store alone; loading ends either way |
| ViewModel.McpViewModel.Logout | app/src/main/java/com/example/mcpclient/presentation/viewmodel/McpViewModel.kt:217-227 | the store is the old store without the phone and session-id keys; logged out, with no response, error, user chats or selected session; nothing else changes |
| ViewModel.McpViewModel.ExecuteApiCall | app/src/main/java/com/example/mcpclient/presentation/viewmodel/McpViewModel.kt:229-259 | ends not loading with either the fetched text as response and no error, or no response and the error message (or "API call failed") |
| ViewModel.McpViewModel.FetchNetWorth | app/src/main/java/com/example/mcpclient/presentation/viewmodel/McpViewModel.kt:266-285 | ends not loading; success replaces only the net-worth data, failure keeps it and sets the error |
| ViewModel.McpViewModel.FetchBankTransactions | app/src/main/java/com/example/mcpclient/presentation/viewmodel/McpViewModel.kt:287-306 | ends not loading; success replaces only the bank data, failure keeps it and sets the error |
| ViewModel.McpViewModel.FetchEpfDetails | app/src/main/java/com/example/mcpclient/presentation/viewmodel/McpViewModel.kt:308-327 | ends not loading; success replaces only the EPF data, failure keeps it and sets the error |
| ViewModel.McpViewModel.FetchCreditReport | app/src/main/java/com/example/mcpclient/presentation/viewmodel/McpViewModel.kt:329-348 | ends not loading; success replaces only the credit-report data, failure keeps it and sets the error |
| ViewModel.McpViewModel.FetchMfTransactions | app/src/main/java/com/example/mcpclient/presentation/viewmodel/McpViewModel.kt:350-369 | ends not loading; success replaces only the fund data, failure keeps it and sets the error |
| ViewModel.McpViewModel.FetchStockTransactions | app/src/main/java/com/example/mcpclient/presentation/viewmodel/McpViewModel.kt:371-390 | ends not loading; success replaces only the stock data, failure keeps it and sets the error |
| ViewModel.McpViewModel.OnUserChatsSnapshot | app/src/main/java/com/example/mcpclient/presentation/viewmodel/McpViewModel.kt:84-97 | a delivered snapshot sets only the user chats, to what the snapshot maps to |
| ViewModel.McpViewModel.OnUserChatsFailed | app/src/main/java/com/example/mcpclient/presentation/viewmodel/McpViewModel.kt:99-103 | a failed load or cancelled subscription sets empty chats for the user and the matching error; nothing else changes |
| ViewModel.McpViewModel.OnChatMessagesSnapshot | app/src/main/java/com/example/mcpclient/presentation/viewmodel/McpViewModel.kt:110-114 | a delivery replaces the selected session outright by one holding the delivered messages (or none); nothing else changes |
| ViewModel.McpViewModel.OnChatMessagesFailed | app/src/main/java/com/example/mcpclient/presentation/viewmodel/McpViewModel.kt:117-120 | a failure sets only the error |
| ViewModel.McpViewModel.SendMessage | app/src/main/java/com/example/mcpclient/presentation/viewmodel/McpViewModel.kt:124-128 | changes no state |
| ViewModel.StoredPhoneIffLoggedIn | app/src/main/java/com/example/mcpclient/presentation/viewmodel/McpViewModel.kt:261-263 | a phone number is stored exactly when the view model shows as logged in |
| ChatDetails.DisplaySessionId | app/src/main/java/com/example/mcpclient/presentation/screens/ChatDetailsScreen.kt:568-574 | "Chat ..." and the last eight characters of an id longer than eight, else "Chat " and the whole id |
| ChatDetails.DisplayedMessages | app/src/main/java/com/example/mcpclient/presentation/screens/ChatDetailsScreen.kt:119 | the selected session's messages, all and only them, oldest first; none without a session |
| ChatDetails.SameTimeMessagesKeepMapOrder | app/src/main/java/com/example/mcpclient/presentation/screens/ChatDetailsScreen.kt:119 | messages with the same timestamp are shown in the order the session's map holds them |
| ChatDetails.ReplyOf | app/src/main/java/com/example/mcpclient/presentation/screens/ChatDetailsScreen.kt:328-336 | the AI bubble, holding the response, iff the response is non-empty; the typing indicator otherwise |
| ChatDetails.Items | app/src/main/java/com/example/mcpclient/presentation/screens/ChatDetailsScreen.kt:309-362 | one entry per message in order, then the agent animation exactly while it shows, then the spacer |
| ChatDetails.ScrollTarget | app/src/main/java/com/example/mcpclient/presentation/screens/ChatDetailsScreen.kt:106-114 | no scroll iff there are no messages and no animation; otherwise the index of the animation (the message count) or of the newest message (the count less one) |
| ChatDetails.ScrollTargetIsLastEntry | app/src/main/java/com/example/mcpclient/presentation/screens/ChatDetailsScreen.kt:106-114 | the screen scrolls exactly when it shows a list, and then to the last entry before the spacer: the animation, or else the newest message |
| ChatDetails.TrimmedHasNoOuterWhitespace | app/src/main/java/com/example/mcpclient/presentation/screens/ChatDetailsScreen.kt:156 | the trimmed text has no whitespace at either end |
| ChatDetails.ChatComposer.constructor | app/src/main/java/com/example/mcpclient/presentation/screens/ChatDetailsScreen.kt:92-98 | the input starts empty and the animation hidden |
| ChatDetails.ChatComposer.OnMessageTextChange | app/src/main/java/com/example/mcpclient/presentation/screens/ChatDetailsScreen.kt:149 | sets only the input text |
| ChatDetails.ChatComposer.OnSendMessage | app/src/main/java/com/example/mcpclient/presentation/screens/ChatDetailsScreen.kt:150-160 | sends iff the text is not blank; then it sends the trimmed text, shows the animation and clears the input; otherwise nothing changes |
| ChatDetails.ChatComposer.OnAnimationComplete | app/src/main/java/com/example/mcpclient/presentation/screens/ChatDetailsScreen.kt:140-142 | hides the animation and keeps the input |
| ChatDetails.SentTextIsTrimmed | app/src/main/java/com/example/mcpclient/presentation/screens/ChatDetailsScreen.kt:151-156 | whatever is sent is non-empty and has no whitespace at either end |
| ChatBottomSheet.SheetDisplaySessionId | app/src/main/java/com/example/mcpclient/presentation/components/ChatBottomSheet.kt:256-262 | "Chat Id : .." and the last nine characters of an id longer than nine, else the id itself |
| ChatBottomSheet.NewChatClick | app/src/main/java/com/example/mcpclient/presentation/components/ChatBottomSheet.kt:87-98 | the id handed to `onChatClick` is the generated `session_<millis>_<15 letters>` id and passes `isValidSessionId` |
| ChatBottomSheet.Preview | app/src/main/java/com/example/mcpclient/presentation/components/ChatBottomSheet.kt:232-238 | the query itself when it has at most 20 characters; otherwise its first 20 characters followed by "..." |
| ChatBottomSheet.Content | app/src/main/java/com/example/mcpclient/presentation/components/ChatBottomSheet.kt:129-189 | loading iff the chats have not arrived; the empty state iff there are no chats; otherwise one card per session in `getChatSessions` order, each opening its own session |
| ChatBottomSheet.TitlesOfGeneratedId | app/src/main/java/com/example/mcpclient/presentation/components/ChatBottomSheet.kt:256-262 | for a generated id the display name (`getDisplayName`, which no screen in the app calls), the card title and the chat top bar show the suffix's first eight, last nine and last eight letters |
| Transactions.Categorize | app/src/main/java/com/example/mcpclient/presentation/screens/TransactionsScreen.kt:365-373 | the keyword rules never yield Entertainment or Shopping, and a description containing "salary" is Income (the full rules are the table lemmas below) |
| Transactions.RuleMatchesUnfolded | app/src/main/java/com/example/mcpclient/presentation/screens/TransactionsScreen.kt:366-371 | each row of the rules table fires exactly when the description contains one of that line's keywords, ignoring case |
| Transactions.FirstMatchingRuleDecides | app/src/main/java/com/example/mcpclient/presentation/screens/TransactionsScreen.kt:365-373 | the first rule that fires decides the category, whatever the later rules say |
| Transactions.ExpenseIffNoRuleMatches | app/src/main/java/com/example/mcpclient/presentation/screens/TransactionsScreen.kt:365-373 | the category is Expense iff no rule fires |
| Transactions.Saturate | app/src/main/java/com/example/mcpclient/presentation/screens/TransactionsScreen.kt:400 | `toInt()` of a magnitude is that magnitude, or `Int.MAX_VALUE` when it is larger |
| Transactions.Clamp | app/src/main/java/com/example/mcpclient/presentation/screens/TransactionsScreen.kt:400 | the amount as shown: the amount itself within plus or minus `Int.MAX_VALUE`, that bound with the sign beyond it |
| Transactions.FormatAmountRoundTrip | app/src/main/java/com/example/mcpclient/presentation/screens/TransactionsScreen.kt:400 | the formatted amount shows the amount, sign included, saturated at plus or minus `Int.MAX_VALUE` as `toInt()` does |
| Transactions.BankDraft | app/src/main/java/com/example/mcpclient/presentation/screens/TransactionsScreen.kt:360-407 | a bank row's item is categorised by the keyword rules applied to its own description, so it is never Entertainment or Shopping, and its description has at most 20 characters |
| Transactions.BankDraftFaithful | app/src/main/java/com/example/mcpclient/presentation/screens/TransactionsScreen.kt:360-407 | a bank row's item in full: the second cell's first 20 characters (or "Bank Transaction" for null), the category's icon, the third cell's amount as shown text that reads back as that amount clamped to the Kotlin `Int` range, the first cell's date, and green iff the amount is not negative |
| Transactions.MfDraft | app/src/main/java/com/example/mcpclient/presentation/screens/TransactionsScreen.kt:415-430 | a scheme row's item is always an Investment whose description starts with "MF: " |
| Transactions.MfDraftFaithful | app/src/main/java/com/example/mcpclient/presentation/screens/TransactionsScreen.kt:415-430 | a scheme row's item in full: after "MF: " the scheme name's first 20 characters, the chart icon in electric blue, the third cell's amount as shown text that reads back as that amount clamped to the Kotlin `Int` range, and the first cell's date |
| Transactions.BankRowDrafts | app/src/main/java/com/example/mcpclient/presentation/screens/TransactionsScreen.kt:359-409 | a bank yields at most one item per row |
| Transactions.BankDrafts | app/src/main/java/com/example/mcpclient/presentation/screens/TransactionsScreen.kt:358-410 | at most ten items per bank |
| Transactions.MfRowDrafts | app/src/main/java/com/example/mcpclient/presentation/screens/TransactionsScreen.kt:414-433 | a scheme yields at most one item per row |
| Transactions.MfDrafts | app/src/main/java/com/example/mcpclient/presentation/screens/TransactionsScreen.kt:413-434 | at most five items per scheme |
| Transactions.BankRowDraftsInOrder | app/src/main/java/com/example/mcpclient/presentation/screens/TransactionsScreen.kt:359-409 | one item per row of at least four cells, in row order: as many items as such rows, and the row with k such rows before it makes item k |
| Transactions.BankRowDraftsMembers | app/src/main/java/com/example/mcpclient/presentation/screens/TransactionsScreen.kt:359-409 | an item comes from a bank's rows iff it is the item of one of its rows of at least four cells |
| Transactions.BankDraftsMembers | app/src/main/java/com/example/mcpclient/presentation/screens/TransactionsScreen.kt:358-410 | an item is among the bank items iff it is the item of a row of at least four cells among the first ten rows of some bank |
| Transactions.BankRowsAfterTenthIgnored | app/src/main/java/com/example/mcpclient/presentation/screens/TransactionsScreen.kt:359 | rows after a bank's tenth never make an item: changing them changes nothing |
| Transactions.MfRowDraftsInOrder | app/src/main/java/com/example/mcpclient/presentation/screens/TransactionsScreen.kt:414-433 | one item per row of at least three cells, in row order: as many items as such rows, and the row with k such rows before it makes item k |
| Transactions.MfRowDraftsMembers | app/src/main/java/com/example/mcpclient/presentation/screens/TransactionsScreen.kt:414-433 | an item comes from a scheme's rows iff it is the item of one of its rows of at least three cells |
| Transactions.MfDraftsMembers | app/src/main/java/com/example/mcpclient/presentation/screens/TransactionsScreen.kt:413-434 | an item is among the fund items iff it is the item of a row of at least three cells among the first five rows of some scheme |
| Transactions.FundRowsAfterFifthIgnored | app/src/main/java/com/example/mcpclient/presentation/screens/TransactionsScreen.kt:414 | rows after a scheme's fifth never make an item: changing them changes nothing |
| Transactions.Numbered | app/src/main/java/com/example/mcpclient/presentation/screens/TransactionsScreen.kt:396-398 | numbering gives exactly one item per row |
| Transactions.NumberedIds | app/src/main/java/com/example/mcpclient/presentation/screens/TransactionsScreen.kt:355-398 | the i-th item added gets id i + 1 and is otherwise that row's item |
| Transactions.MfRowDraftsShape | app/src/main/java/com/example/mcpclient/presentation/screens/TransactionsScreen.kt:420-430 | every scheme row becomes an Investment item whose description starts with "MF: " |
| Transactions.MfDraftsShape | app/src/main/java/com/example/mcpclient/presentation/screens/TransactionsScreen.kt:413-434 | every fund item is an Investment item whose description starts with "MF: " |
| Transactions.RealTransactions | app/src/main/java/com/example/mcpclient/presentation/screens/TransactionsScreen.kt:349-441 | the sample list is shown iff there are no real items; otherwise min(count, 15) items whose ids run down from the count, all "Completed" |
| Transactions.SampleOnlyForNone | app/src/main/java/com/example/mcpclient/presentation/screens/TransactionsScreen.kt:436-440 | real items never look like the sample list: the shown list is the sample list iff no item was added |
| Transactions.RealTransactionsShape | app/src/main/java/com/example/mcpclient/presentation/screens/TransactionsScreen.kt:436-440 | with no rows the sample list is shown; otherwise min(count, 15) items, the last ones added, newest first, each with the id of its position |
| Transactions.NewestFirst | app/src/main/java/com/example/mcpclient/presentation/screens/TransactionsScreen.kt:437 | the first fifteen of the numbered items in reverse are the last fifteen added, newest first |
| Transactions.LaterItemsCrowdOut | app/src/main/java/com/example/mcpclient/presentation/screens/TransactionsScreen.kt:436-437 | when fifteen or more items are added after some others, none of the earlier ones is shown |
| Transactions.FundRowsCrowdOutBankRows | app/src/main/java/com/example/mcpclient/presentation/screens/TransactionsScreen.kt:412-437 | since fund rows are added after bank rows, fifteen or more fund items push every bank row off the list |
| Transactions.RealRowsNeverEntertainmentOrShopping | app/src/main/java/com/example/mcpclient/presentation/screens/TransactionsScreen.kt:365-384 | no real item has the Entertainment or Shopping category, so those icon and colour branches are unreachable |
| Transactions.BankRowsNeverEntertainmentOrShopping | app/src/main/java/com/example/mcpclient/presentation/screens/TransactionsScreen.kt:365-373 | no bank item has the Entertainment or Shopping category |
| Transactions.BankRowDraftsCategories | app/src/main/java/com/example/mcpclient/presentation/screens/TransactionsScreen.kt:365-373 | no item of one bank has the Entertainment or Shopping category |
| Transactions.GenerateRealTransactions | app/src/main/java/com/example/mcpclient/presentation/screens/TransactionsScreen.kt:349-441 | the result is `RealTransactions` of the bank and fund data alone; the filter and the stock data play no part |
| Transactions.AddBanks | app/src/main/java/com/example/mcpclient/presentation/screens/TransactionsScreen.kt:358-410 | the bank loop adds the numbered bank items and leaves the counter one past the last id |
| Transactions.AddFunds | app/src/main/java/com/example/mcpclient/presentation/screens/TransactionsScreen.kt:413-434 | the fund loop continues the numbering after the bank items |
| Transactions.AddBankRows | app/src/main/java/com/example/mcpclient/presentation/screens/TransactionsScreen.kt:359-409 | the loop over one bank's first ten rows appends its items with consecutive ids |
| Transactions.AddFundRows | app/src/main/java/com/example/mcpclient/presentation/screens/TransactionsScreen.kt:414-433 | the loop over one scheme's first five rows appends its items with consecutive ids |
| Navigation.SplashDestination | app/src/main/java/com/example/mcpclient/presentation/navigation/McpNavigation.kt:29-33 | the splash leads to the dashboard iff logged in, and to sign-in iff not |
| Navigation.DetailsRoute | app/src/main/java/com/example/mcpclient/presentation/navigation/McpNavigation.kt:60-73 | the four named sections route to themselves; "chat/<id>" routes to the chat route with the id and the stored number (or "1313131313"); anything else routes to "details/<section>" |
| Navigation.ChatArgument | app/src/main/java/com/example/mcpclient/presentation/navigation/McpNavigation.kt:105-106 | a chat argument is the value passed under that name, or "" when it or the arguments are missing |
| Navigation.Destination | app/src/main/java/com/example/mcpclient/presentation/navigation/McpNavigation.kt:25-115 | a route reaches a fixed screen iff it is one of the six registered names; it reaches the chat screen only as `chat_details/<id>/<user>` with no '/' in either, which the screen receives |
| Navigation.ChatArguments | app/src/main/java/com/example/mcpclient/presentation/navigation/McpNavigation.kt:101-106 | the two path segments come back out of the chat screen's arguments under their names |
| Navigation.RouteOfThreeParts | app/src/main/java/com/example/mcpclient/presentation/navigation/McpNavigation.kt:98-99 | a route that splits into three segments is those segments joined by '/', none of the last two containing '/' |
| Navigation.SplashReachesScreen | app/src/main/java/com/example/mcpclient/presentation/navigation/McpNavigation.kt:26-39 | the splash always leads to a registered screen: the dashboard or sign-in |
| Navigation.SplashFollowsStore | app/src/main/java/com/example/mcpclient/presentation/navigation/McpNavigation.kt:29-33 | for a consistent view model the splash goes to the dashboard exactly when a phone number is stored |
| Navigation.ChatRouteParts | app/src/main/java/com/example/mcpclient/presentation/navigation/McpNavigation.kt:98-104 | a chat route splits on '/' into the route name, the pieces of the id and the pieces of the user id |
| Navigation.ChatRouteReaches | app/src/main/java/com/example/mcpclient/presentation/navigation/McpNavigation.kt:98-113 | a chat route reaches the chat screen iff neither argument contains '/', and the screen then receives exactly that id and user id |
| Navigation.DetailsFallbackUnreached | app/src/main/java/com/example/mcpclient/presentation/navigation/McpNavigation.kt:71 | no "details/<section>" route has a registered screen |
| Navigation.NamedSectionRoute | app/src/main/java/com/example/mcpclient/presentation/navigation/McpNavigation.kt:61-65 | the named sections are not chat sections, and all of them except "analytics" reach a screen |
| Navigation.DetailsRouteReaches | app/src/main/java/com/example/mcpclient/presentation/navigation/McpNavigation.kt:60-73 | a section reaches a screen iff it is one of the three data sections or a chat section whose id and user id contain no '/', and the chat screen then gets that id and user id |
| Navigation.GeneratedIdHasNoSlash | app/src/main/java/com/example/mcpclient/presentation/components/ChatBottomSheet.kt:89-91 | a generated session id contains no '/' |
| Navigation.NewChatOpensItsScreen | app/src/main/java/com/example/mcpclient/presentation/navigation/McpNavigation.kt:66-70 | a chat started from New Chat opens the chat screen on that very id, for any stored number without '/' |

## Left out

- JSON decoding (Gson) is a parameter, not modelled. Its `Null` outcome stands for Gson returning null, which it does for a blank document or the literal `null`. A parsed fetch never decodes empty text, but whitespace-only text decodes to `Null`. The fetch then succeeds with no record (`Gateway.FetchParsed`), and the view model's field is set to none.
- ArthaApi.SendMessageResult: a `Null` decode of a 2xx body (an empty or blank body, say) makes `sendMessage` throw a NullPointerException when it reads the reply for logging. That exception becomes the failure. Its message is not modelled; the model's failure carries none.
- The response schemas of net worth, EPF, credit report and stock transactions are opaque types. Their fields have no behaviour in the core.
- Firebase references, `get()`, `addValueEventListener` and listener lifetime are left out. Snapshots and failures arrive as method arguments. A snapshot's value is absent exactly when `getValue` returns null (an existing node without data).
- A snapshot that Firebase cannot convert to `UserChats` (or, for one session, to a map of `ChatMessage`) makes `getValue` throw a `DatabaseException` inside the success listener or `onDataChange`. The app does not catch it. That crash is not modelled: `ViewModel.ChatsFromSnapshot`, `ViewModel.McpViewModel.OnUserChatsSnapshot` and `ViewModel.McpViewModel.OnChatMessagesSnapshot` only see snapshots that convert or read as null.
- Concurrency is left out. Each `viewModelScope.launch` block is one atomic step, and the sharing of `isDataLoading` between overlapping fetches is not modelled.
- `fetchAllData` (presentation/viewmodel/McpViewModel.kt:392) only launches the six fetches concurrently. It is left out; each fetch is modelled.
- `getStoredPhoneNumber` of the view model forwards to the repository. It is a function of the store, used in `StoredPhoneIffLoggedIn`.
- Logging, the OkHttp and Retrofit wiring and the TLS configuration in NetworkModule.kt are not part of this model.
- The `arguments` map of `JsonRpcParams` holds `Any` values. The model uses string values; only its emptiness matters here.
- Transactions.FormatAmountRoundTrip: amounts are whole numbers. The model does not capture `toDouble` parsing or how `toInt` truncates fractions. It does capture `toInt` saturating at `Int.MAX_VALUE` (`Transactions.Saturate`). The doubles NaN and plus or minus infinity are not modelled: the source shows NaN as "-₹0" and infinities as `Int.MAX_VALUE` with their sign.
- Transactions.AmountOf: a cell carries the whole part of its number, and a cell that is null or not a number counts as 0, as `toDoubleOrNull() ?: 0.0` does. The sign of an amount strictly between -1 and 0 is therefore lost. The source shows -0.5 as "-₹0" in the category colour; the model shows it as "+₹0" in green.
- Text.ContainsIgnoreCase folds ASCII letters only; Kotlin's case folding beyond ASCII is not modelled.
- Colours are their theme names, icons their emoji strings; the rest of the screen visuals, animations, delays and the selected filter chip are not modelled.
- `viewModel.currentSessionId` is assigned by the New Chat click but is not a field of the view model; the assignment is left out, and `ChatBottomSheet.NewChatClick` returns the id it hands to `onChatClick`.
- Navigation: a route matches `chat_details/{sessionId}/{userId}` when it splits into exactly three '/'-separated segments headed by `chat_details`, empty segments included. The back stack and `popUpTo` are not modelled.
- The sign-in, dashboard, investments and net-worth screens and the `main` route are not part of this model. Only their registration as navigation destinations is modelled.
- Navigating to a route the graph does not register (the "analytics" section, or any "details/<section>") makes the navigation library throw an `IllegalArgumentException`, which the app does not catch. `Navigation.Destination` returns none for such a route; the crash itself is not modelled.
- Lengths are counted in characters (Unicode scalar values); Kotlin's `String.length`, `take`, `takeLast` and comparisons of length count UTF-16 code units. Text outside the Basic Multilingual Plane (most emoji) counts two units per character in the source and one in the model, and `take` in the source can split such a character into a lone surrogate. This affects the 20-character limit of `ChatBottomSheet.Preview`, the eight- and nine-character titles of `ChatDetails.DisplaySessionId`, `ChatBottomSheet.SheetDisplaySessionId` and `ChatModels.ChatSession.GetDisplayName`, the 20-character descriptions and 10-character dates of `Transactions.BankDraft` and `Transactions.MfDraft`, and the more-than-20 length test of `ArthaApi.IsValidSessionId`. For text made only of Basic Multilingual Plane characters the two counts agree.

=== FILE: api_models.dfy ===
/**
 * The Gson data classes the core reads. The JSON-RPC envelope and the two
 * transaction schemas used by the transactions list are given field by
 * field; the other four response schemas are not modelled and stay opaque.
 * A Kotlin property that Gson may leave null is an `Option`.
 */
module ApiModels {
  import opened Wrappers

  /** One item of `result.content` in a tool-call response. */
  datatype ContentItem = ContentItem(kind: string, text: Option<string>)

  datatype JsonRpcContent = JsonRpcContent(content: Option<seq<ContentItem>>)

  /** The JSON-RPC response envelope of a tool call. */
  datatype JsonRpcResponse = JsonRpcResponse(jsonrpc: string, id: int, result: Option<JsonRpcContent>)

  /**
   * One element of a transaction row (`List<Any>`): JSON null, or a value
   * with the text its `toString()` gives and, when that text reads as a
   * number, the whole-number value of that number.
   */
  datatype Cell = JsonNull | JsonValue(text: string, number: Option<int>)

  type Row = seq<Cell>

  datatype BankTransaction = BankTransaction(bank: string, txns: seq<Row>)

  datatype BankTransactionsResponse =
    BankTransactionsResponse(schemaDescription: string, bankTransactions: Option<seq<BankTransaction>>)

  datatype MfTransaction = MfTransaction(isin: string, schemeName: string, folioId: string, txns: seq<Row>)

  datatype MfTransactionsResponse =
    MfTransactionsResponse(mfTransactions: Option<seq<MfTransaction>>, schemaDescription: string)

  type NetWorthResponse(==)
  type EpfDetailsResponse(==)
  type CreditReportResponse(==)
  type StockTransactionsResponse(==)
}

=== FILE: artha_api.dfy ===
/**
 * The chat back-end client (`ArthaApiServiceImpl`): posting a user's query
 * for a chat session, and making and checking chat session ids. The answer
 * to a query arrives later through the realtime database, not here.
 */
module ArthaApi {
  import opened Wrappers
  import opened Text
  import opened Http

  const BASE_URL: string := "https://adityachaudhary2913-agent-artha.hf.space"
  const ENDPOINT: string := "/start/"
  const SESSION_PREFIX: string := "session_"
  const API_CALL_FAILED: string := "API call failed: "

  /** The number of random letters at the end of a generated session id. */
  const SUFFIX_LENGTH: nat := 15

  type LowerLetter = c: char | 'a' <= c <= 'z' witness 'a'

  datatype ArthaApiRequest = ArthaApiRequest(user_id: string, session_id: string, query: string)

  datatype ArthaApiResponse = ArthaApiResponse(status: string, message: string)

  /** A JSON POST to an absolute URL. */
  datatype PostRequest = PostRequest(url: string, headers: seq<(string, string)>, body: ArthaApiRequest)

  // ---------------------------------------------------------------------
  // Session ids

  /**
   * `(1..15).map { ('a'..'z').random() }.joinToString("")`, where `draw(i)`
   * is the letter the random source gives for the `i`-th draw.
   */
  function RandomSuffix(draw: nat -> LowerLetter): (r: string)
    ensures |r| == SUFFIX_LENGTH
    ensures forall i :: 0 <= i < |r| ==> 'a' <= r[i] <= 'z'
  {
    seq(SUFFIX_LENGTH, i requires 0 <= i => draw(i + 1) as char)
  }

  /** `generateSessionId`: `session_<milliseconds>_<15 random lower-case letters>`. */
  function GenerateSessionId(nowMillis: nat, draw: nat -> LowerLetter): (id: string)
    ensures StartsWith(id, SESSION_PREFIX)
    ensures |id| == |SESSION_PREFIX| + |NatToString(nowMillis)| + 1 + SUFFIX_LENGTH
    ensures AllDigits(id[|SESSION_PREFIX|..|id| - SUFFIX_LENGTH - 1]) && id[|id| - SUFFIX_LENGTH - 1] == '_'
    ensures forall i :: |id| - SUFFIX_LENGTH <= i < |id| ==> 'a' <= id[i] <= 'z'
  {
    var digits := NatToString(nowMillis);
    var id := SESSION_PREFIX + digits + "_" + RandomSuffix(draw);
    assert id[|SESSION_PREFIX|..|id| - SUFFIX_LENGTH - 1] == digits;
    id
  }

  /** `isValidSessionId`: the `session_` prefix and more than 20 characters. */
  predicate IsValidSessionId(s: string) {
    StartsWith(s, SESSION_PREFIX) && |s| > 20
  }

  /** The timestamp and suffix of an id of the generated shape, if it has that shape. */
  function ParseSessionId(s: string): Option<(nat, string)> {
    var parts := Split(s, '_');
    if |parts| == 3 && parts[0] == "session" && |parts[1]| > 0 && AllDigits(parts[1])
    then Some((ParseNat(parts[1]), parts[2]))
    else None
  }

  lemma DigitsAvoidUnderscore(s: string)
    requires AllDigits(s)
    ensures '_' !in s
  {
    assert forall i :: 0 <= i < |s| ==> s[i] != '_';
  }

  /** None of the three pieces of a generated id contains `_`. */
  lemma IdPiecesAvoidUnderscore(nowMillis: nat, draw: nat -> LowerLetter)
    ensures '_' !in "session" && '_' !in NatToString(nowMillis) && '_' !in RandomSuffix(draw)
  {
    assert forall i :: 0 <= i < |"session"| ==> "session"[i] != '_';
    DigitsAvoidUnderscore(NatToString(nowMillis));
    var suffix := RandomSuffix(draw);
    assert forall i :: 0 <= i < |suffix| ==> suffix[i] != '_';
  }

  /** A generated id splits on `_` into `session`, the timestamp and the suffix. */
  lemma GeneratedIdParts(nowMillis: nat, draw: nat -> LowerLetter)
    ensures Split(GenerateSessionId(nowMillis, draw), '_')
         == ["session", NatToString(nowMillis), RandomSuffix(draw)]
  {
    var digits := NatToString(nowMillis);
    var suffix := RandomSuffix(draw);
    assert GenerateSessionId(nowMillis, draw) == "session" + ['_'] + digits + ['_'] + suffix;
    SplitAroundTwo("session", digits, suffix, '_');
    IdPiecesAvoidUnderscore(nowMillis, draw);
    SplitWithoutSep("session", '_');
    SplitWithoutSep(digits, '_');
    SplitWithoutSep(suffix, '_');
  }

  /** Every generated id passes `isValidSessionId`, and its timestamp and suffix can be read back. */
  lemma GeneratedIdIsValid(nowMillis: nat, draw: nat -> LowerLetter)
    ensures IsValidSessionId(GenerateSessionId(nowMillis, draw))
    ensures |GenerateSessionId(nowMillis, draw)| >= 25
    ensures ParseSessionId(GenerateSessionId(nowMillis, draw)) == Some((nowMillis, RandomSuffix(draw)))
  {
    GeneratedIdParts(nowMillis, draw);
    ParseNatToString(nowMillis);
  }

  /**
   * Two generated ids are equal only when both the millisecond clock and
   * all fifteen random letters agree.
   */
  lemma GeneratedIdsDistinct(t1: nat, d1: nat -> LowerLetter, t2: nat, d2: nat -> LowerLetter)
    requires GenerateSessionId(t1, d1) == GenerateSessionId(t2, d2)
    ensures t1 == t2 && RandomSuffix(d1) == RandomSuffix(d2)
  {
    GeneratedIdIsValid(t1, d1);
    GeneratedIdIsValid(t2, d2);
  }

  /**
   * The validity check is weaker than the generated shape: any long enough
   * text after `session_` without a second underscore passes it, though no
   * generator made it.
   */
  lemma ValidityIsOnlyAShapeHint(tail: string)
    requires '_' !in tail && |tail| >= 13
    ensures IsValidSessionId(SESSION_PREFIX + tail)
    ensures ParseSessionId(SESSION_PREFIX + tail) == None
  {
    assert SESSION_PREFIX + tail == "session" + ['_'] + tail;
    SplitAround("session", tail, '_');
    assert '_' !in "session" by {
      assert forall i :: 0 <= i < |"session"| ==> "session"[i] != '_';
    }
    SplitWithoutSep("session", '_');
    SplitWithoutSep(tail, '_');
  }

  // ---------------------------------------------------------------------
  // Sending a message

  /** The request `sendMessage` posts. */
  function SendMessageRequest(userId: string, sessionId: string, query: string): (r: PostRequest)
    ensures r.url == BASE_URL + ENDPOINT
    ensures r.body.user_id == userId && r.body.session_id == sessionId && r.body.query == query
    ensures Lookup(r.headers, "Content-Type") == Some("application/json")
    ensures Lookup(r.headers, "Accept") == Some("application/json")
  {
    PostRequest(BASE_URL + ENDPOINT,
                [("Content-Type", "application/json"), ("Accept", "application/json")],
                ArthaApiRequest(userId, sessionId, query))
  }

  /** The first word of the text after "API call failed: ", if the message has that form. */
  function FailedStatusText(message: string): Option<string> {
    if StartsWith(message, API_CALL_FAILED)
    then Some(Split(message[|API_CALL_FAILED|..], ' ')[0])
    else None
  }

  /**
   * The result of `sendMessage` given the exchange and the decoder: the
   * decoder sees the body, or "" when there is none, of a 2xx answer only.
   * A `null` from the decoder (a blank body, say) fails when the reply's
   * status is read for logging; that exception's message is not modelled.
   */
  function SendMessageResult(ex: Exchange<string>, decode: string -> Decoded<ArthaApiResponse>): (r: Result<ArthaApiResponse>)
    ensures r.Success? <==> Succeeded(ex) && decode(ex.response.body.GetOr("")).Ok?
    ensures r.Success? ==> decode(ex.response.body.GetOr("")) == Ok(r.value)
    ensures Succeeded(ex) && decode(ex.response.body.GetOr("")).Null? ==> r == Failure(None)
    ensures ex.Threw? ==> r == Failure(ex.message)
    ensures ex.Answered? && !Succeeded(ex) ==>
      r.message.Some? && FailedStatusText(r.message.value) == Some(NatToString(ex.response.code))
  {
    match ex
    case Threw(m) => Failure(m)
    case Answered(resp) =>
      if !IsSuccessful(resp.code) then
        var digits := NatToString(resp.code);
        var m := API_CALL_FAILED + digits + " " + resp.message;
        assert m[|API_CALL_FAILED|..] == digits + [' '] + resp.message;
        SplitAround(digits, resp.message, ' ');
        assert ' ' !in digits by {
          forall i | 0 <= i < |digits| ensures digits[i] != ' ' {
            assert IsDigit(digits[i]);
          }
        }
        SplitWithoutSep(digits, ' ');
        Fail(m)
      else
        match decode(resp.body.GetOr(""))
        case Ok(reply) => Success(reply)
        case Null => Failure(None)
        case Malformed(detail) => Failure(detail)
  }
}

=== FILE: chat_bottom_sheet.dfy ===
/**
 * The chat list sheet (`ChatBottomSheet`): what it shows for the user's
 * chats, the title and preview of each card, and the id a new chat gets.
 */
module ChatBottomSheet {
  import opened Wrappers
  import opened Text
  import opened ChatModels
  import ArthaApi
  import ChatDetails

  const CARD_PREFIX: string := "Chat Id : .."

  /**
   * The card's `getDisplaySessionId`: "Chat Id : .." and the last nine
   * characters of an id longer than nine, otherwise the id itself.
   */
  function SheetDisplaySessionId(s: string): (r: string)
    ensures |s| > 9 ==> |r| == 21 && StartsWith(r, CARD_PREFIX) && r[12..] == s[|s| - 9..]
    ensures |s| <= 9 ==> r == s
  {
    if |s| > 9 then CARD_PREFIX + TakeLast(s, 9) else s
  }

  /**
   * The New Chat click, which builds its id inline rather than asking the
   * chat client: returns the id handed to `onChatClick`.
   */
  function NewChatClick(nowMillis: nat, draw: nat -> ArthaApi.LowerLetter): (id: string)
    ensures id == ArthaApi.GenerateSessionId(nowMillis, draw)
    ensures ArthaApi.IsValidSessionId(id)
  {
    ArthaApi.GeneratedIdIsValid(nowMillis, draw);
    "session_" + NatToString(nowMillis) + "_" + ArthaApi.RandomSuffix(draw)
  }

  /**
   * The card's preview of a message: its query cut to 20 characters, with
   * "..." exactly when something was cut.
   */
  function Preview(m: ChatMessage): (r: string)
    ensures |m.query_user| <= 20 ==> r == m.query_user
    ensures |m.query_user| > 20 ==> |r| == 23 && r[..20] <= m.query_user && r[20..] == "..."
  {
    Take(m.query_user, 20) + if |m.query_user| > 20 then "..." else ""
  }

  /** One card: its title, the preview line if there is a last message, and the id a click opens. */
  datatype Card = Card(title: string, preview: Option<string>, opens: string)

  function CardFor(s: ChatSession): Card {
    Card(SheetDisplaySessionId(s.sessionId),
         match s.GetLastMessage() case Some(m) => Some(Preview(m)) case None => None,
         s.sessionId)
  }

  /** What the sheet's list area shows. */
  datatype SheetContent = Loading | NoChats | Cards(cards: seq<Card>)

  /**
   * A spinner while the chats have not arrived, the empty state when the
   * user has no chats, otherwise one card per session in
   * `getChatSessions` order, each opening its own session.
   */
  function Content(userChats: Option<UserChats>): (c: SheetContent)
    ensures userChats.None? <==> c.Loading?
    ensures c.NoChats? <==> userChats.Some? && userChats.value.chats == []
    ensures c.Cards? ==>
      |c.cards| == |GetChatSessions(userChats.value)|
      && forall i :: 0 <= i < |c.cards| ==>
           c.cards[i] == CardFor(GetChatSessions(userChats.value)[i])
           && c.cards[i].opens == GetChatSessions(userChats.value)[i].sessionId
  {
    match userChats
    case None => Loading
    case Some(u) =>
      ChatSessionsFaithful(u);
      var sessions := GetChatSessions(u);
      if sessions == [] then NoChats
      else Cards(seq(|sessions|, i requires 0 <= i < |sessions| => CardFor(sessions[i])))
  }

  /**
   * For a generated id the three titles of a chat show different letters
   * of its random suffix: the unnamed session's display name the first
   * eight, the card the last nine and the chat screen's top bar the last
   * eight.
   */
  lemma TitlesOfGeneratedId(nowMillis: nat, draw: nat -> ArthaApi.LowerLetter, s: ChatSession)
    requires s.sessionId == ArthaApi.GenerateSessionId(nowMillis, draw)
    requires IsBlank(s.sessionName)
    ensures var suffix := ArthaApi.RandomSuffix(draw);
      && s.GetDisplayName() == "Chat " + suffix[..8]
      && SheetDisplaySessionId(s.sessionId) == CARD_PREFIX + suffix[6..]
      && ChatDetails.DisplaySessionId(s.sessionId) == "Chat ..." + suffix[7..]
  {
    var suffix := ArthaApi.RandomSuffix(draw);
    var id := s.sessionId;
    DisplayNameOfGeneratedId(s, nowMillis, draw);
    ArthaApi.GeneratedIdIsValid(nowMillis, draw);
    assert id == ArthaApi.SESSION_PREFIX + NatToString(nowMillis) + "_" + suffix;
    assert id[|id| - 9..] == suffix[6..];
    assert id[|id| - 8..] == suffix[7..];
  }
}

=== FILE: chat_details.dfy ===
/**
 * The logic inside the chat screen (`ChatDetailsScreen`): the title it
 * derives from the session id, the order and shape of the message list,
 * the auto-scroll position, and the composer's send guard.
 */
module ChatDetails {
  import opened Wrappers
  import opened Text
  import opened Sorting
  import opened ChatModels

  /**
   * The top bar's `getDisplaySessionId`: "Chat ..." and the last eight
   * characters of an id longer than eight, otherwise "Chat " and the id.
   */
  function DisplaySessionId(s: string): (r: string)
    ensures StartsWith(r, "Chat ")
    ensures |s| > 8 ==> |r| == 16 && StartsWith(r, "Chat ...") && r[8..] == s[|s| - 8..]
    ensures |s| <= 8 ==> r[5..] == s
  {
    if |s| > 8 then "Chat ..." + TakeLast(s, 8) else "Chat " + s
  }

  function Timestamp(m: ChatMessage): int {
    m.timestamps
  }

  /**
   * `selectedChatSession?.messages?.values?.sortedBy { it.timestamps } ?: emptyList()`:
   * the session's messages, oldest first.
   */
  function DisplayedMessages(session: Option<ChatSession>): (r: seq<ChatMessage>)
    ensures session.None? ==> r == []
    ensures session.Some? ==> multiset(r) == multiset(Values(session.value.messages))
    ensures SortedBy(r, Timestamp)
  {
    match session
    case None => []
    case Some(s) => SortBy(Values(s.messages), Timestamp)
  }

  /** Messages with the same timestamp are shown in the order the session's map holds them. */
  lemma SameTimeMessagesKeepMapOrder(s: ChatSession, t: int)
    ensures WithKey(DisplayedMessages(Some(s)), Timestamp, t) == WithKey(Values(s.messages), Timestamp, t)
  {
    SortByStable(Values(s.messages), Timestamp, t);
  }

  /** What follows a user's query in the list: the answer, or a typing indicator while there is none. */
  datatype Reply = AiBubble(text: string) | TypingIndicator

  /** One entry of the message list. */
  datatype Item =
    | MessageItem(query: string, timestamp: int, reply: Reply)
    | AgentAnimation
    | BottomSpacer

  function ReplyOf(m: ChatMessage): (r: Reply)
    ensures r.AiBubble? <==> m.llm_response != []
    ensures r.AiBubble? ==> r.text == m.llm_response
  {
    if m.llm_response != [] then AiBubble(m.llm_response) else TypingIndicator
  }

  /**
   * The entries of `ChatMessagesList`: one per message, then the agent
   * animation while it shows, then a spacer.
   */
  function Items(messages: seq<ChatMessage>, showAgentAnimation: bool): (items: seq<Item>)
    ensures |items| == |messages| + (if showAgentAnimation then 1 else 0) + 1
    ensures forall i :: 0 <= i < |messages| ==>
      items[i] == MessageItem(messages[i].query_user, messages[i].timestamps, ReplyOf(messages[i]))
    ensures showAgentAnimation ==> items[|messages|] == AgentAnimation
    ensures items[|items| - 1] == BottomSpacer
  {
    seq(|messages|, i requires 0 <= i < |messages| =>
          MessageItem(messages[i].query_user, messages[i].timestamps, ReplyOf(messages[i])))
    + (if showAgentAnimation then [AgentAnimation] else [])
    + [BottomSpacer]
  }

  /** What the screen body shows. */
  datatype Body = EmptyChatState | MessagesList(items: seq<Item>)

  function ScreenBody(session: Option<ChatSession>, showAgentAnimation: bool): Body {
    var messages := DisplayedMessages(session);
    if messages == [] && !showAgentAnimation then EmptyChatState
    else MessagesList(Items(messages, showAgentAnimation))
  }

  /** The number of messages in the selected session, 0 without one. */
  function MessageCount(session: Option<ChatSession>): nat {
    match session
    case None => 0
    case Some(s) => |s.messages|
  }

  /**
   * The auto-scroll effect: the index `count + (animation ? 1 : 0) - 1`
   * it scrolls to, or nothing when that count is zero.
   */
  function ScrollTarget(session: Option<ChatSession>, showAgentAnimation: bool): (r: Option<nat>)
    ensures r.None? <==> MessageCount(session) == 0 && !showAgentAnimation
    ensures r.Some? && showAgentAnimation ==> r.value == MessageCount(session)
    ensures r.Some? && !showAgentAnimation ==> r.value + 1 == MessageCount(session)
  {
    var count := MessageCount(session) + if showAgentAnimation then 1 else 0;
    if count > 0 then Some(count - 1) else None
  }

  /**
   * The screen scrolls exactly when it shows a list, and then to its last
   * entry before the spacer: the animation while it shows, else the
   * newest message.
   */
  lemma ScrollTargetIsLastEntry(session: Option<ChatSession>, showAgentAnimation: bool)
    ensures ScrollTarget(session, showAgentAnimation).Some? <==> ScreenBody(session, showAgentAnimation).MessagesList?
    ensures ScrollTarget(session, showAgentAnimation).Some? ==>
      var k := ScrollTarget(session, showAgentAnimation).value;
      var items := ScreenBody(session, showAgentAnimation).items;
      && k + 2 == |items|
      && items[k + 1] == BottomSpacer
      && (showAgentAnimation ==> items[k] == AgentAnimation)
      && (!showAgentAnimation ==>
            items[k].MessageItem?
            && items[k].timestamp == DisplayedMessages(session)[|DisplayedMessages(session)| - 1].timestamps)
  {
    var messages := DisplayedMessages(session);
    if session.Some? {
      assert |messages| == |multiset(messages)| == |multiset(Values(session.value.messages))|;
    }
    assert |messages| == MessageCount(session);
  }

  /** Trimming leaves no whitespace at either end. */
  lemma TrimmedHasNoOuterWhitespace(s: string)
    ensures Trim(s) == [] || (!IsWhitespace(Trim(s)[0]) && !IsWhitespace(Trim(s)[|Trim(s)| - 1]))
  {
    var t := TrimStart(s);
    if Trim(s) != [] {
      assert Trim(s)[0] == t[0];
    }
  }

  /** The composer's two `remember`ed variables. */
  class ChatComposer {
    var messageText: string
    var showAgentAnimation: bool

    constructor ()
      ensures messageText == "" && !showAgentAnimation
    {
      messageText := "";
      showAgentAnimation := false;
    }

    method OnMessageTextChange(text: string)
      modifies this
      ensures messageText == text && showAgentAnimation == old(showAgentAnimation)
    {
      messageText := text;
    }

    /**
     * `onSendMessage`: when the trimmed text is not empty, starts the
     * animation, sends the trimmed text and clears the input; otherwise
     * does nothing. Returns what was passed to `sendMessage`, if anything.
     */
    method OnSendMessage() returns (sent: Option<string>)
      modifies this
      ensures sent.Some? <==> !IsBlank(old(messageText))
      ensures sent.Some? ==>
        sent.value == Trim(old(messageText)) && messageText == "" && showAgentAnimation
      ensures sent.None? ==>
        messageText == old(messageText) && showAgentAnimation == old(showAgentAnimation)
    {
      TrimEmptyIffBlank(messageText);
      var trimmed := Trim(messageText);
      if trimmed != [] {
        showAgentAnimation := true;
        sent := Some(trimmed);
        messageText := "";
      } else {
        sent := None;
      }
    }

    /** The animation's completion callback hides it. */
    method OnAnimationComplete()
      modifies this
      ensures !showAgentAnimation && messageText == old(messageText)
    {
      showAgentAnimation := false;
    }
  }

  /** Whatever is sent is non-empty and has no whitespace at either end. */
  lemma SentTextIsTrimmed(text: string)
    requires !IsBlank(text)
    ensures Trim(text) != []
    ensures !IsWhitespace(Trim(text)[0]) && !IsWhitespace(Trim(text)[|Trim(text)| - 1])
  {
    TrimEmptyIffBlank(text);
    TrimmedHasNoOuterWhitespace(text);
  }
}

=== FILE: chat_models.dfy ===
/**
 * The chat records read from the realtime database (`ChatModels.kt`): a
 * user's chats are a map from session id to a map from message id to
 * message. Kotlin maps keep insertion order, and the choices below depend
 * on it (which of two equally recent messages is "last", how sessions with
 * equal times are ordered), so each map is an association list in
 * iteration order.
 */
module ChatModels {
  import opened Wrappers
  import opened Text
  import opened Sorting
  import ArthaApi

  /** A stored message; every field has the default a missing database field gets. */
  datatype ChatMessage = ChatMessage(
    id: string := "",
    llm_response: string := "",
    query_user: string := "",
    timestamps: int := 0)

  /** The values of a map, in iteration order. */
  function Values<V>(m: seq<(string, V)>): (vs: seq<V>)
    ensures |vs| == |m| && forall i :: 0 <= i < |m| ==> vs[i] == m[i].1
  {
    seq(|m|, i requires 0 <= i < |m| => m[i].1)
  }

  /**
   * The index `maxByOrNull { it.timestamps }` picks: a greatest timestamp,
   * and of several equal ones the first, since the library replaces its
   * candidate only on a strictly greater key.
   */
  function MaxIndex(ms: seq<ChatMessage>): (k: nat)
    requires ms != []
    ensures k < |ms|
    ensures forall j :: 0 <= j < |ms| ==> ms[j].timestamps <= ms[k].timestamps
    ensures forall j :: 0 <= j < k ==> ms[j].timestamps < ms[k].timestamps
  {
    if |ms| == 1 then 0
    else
      var k := MaxIndex(ms[..|ms| - 1]);
      if ms[k].timestamps < ms[|ms| - 1].timestamps then |ms| - 1 else k
  }

  datatype ChatSession = ChatSession(
    sessionId: string := "",
    sessionName: string := "",
    messages: seq<(string, ChatMessage)> := [],
    lastMessageTime: int := 0)
  {
    /**
     * `getDisplayName`: the session name unless it is blank, otherwise
     * "Chat " and the first eight characters of the last `_`-separated
     * piece of the id, or "Chat Session" when the id has fewer than three
     * pieces. It is never empty.
     */
    function GetDisplayName(): (r: string)
      ensures !IsBlank(sessionName) ==> r == sessionName
      ensures IsBlank(sessionName) ==> StartsWith(r, "Chat ")
      ensures r != []
    {
      if !IsBlank(sessionName) then sessionName
      else
        var parts := Split(sessionId, '_');
        if |parts| >= 3 then "Chat " + Take(parts[|parts| - 1], 8) else "Chat Session"
    }

    /** `getLastMessage`: the message with the greatest timestamp, the first such, or null. */
    function GetLastMessage(): (r: Option<ChatMessage>)
      ensures r.None? <==> messages == []
      ensures r.Some? ==> r.value in Values(messages)
      ensures r.Some? ==> forall j :: 0 <= j < |messages| ==> messages[j].1.timestamps <= r.value.timestamps
    {
      if messages == [] then None else Some(Values(messages)[MaxIndex(Values(messages))])
    }
  }

  datatype UserChats = UserChats(
    userId: string,
    chats: seq<(string, seq<(string, ChatMessage)>)>,
    financial_summary: string)

  /** `messages.mapValues { (messageId, m) -> m.copy(id = messageId) }`. */
  function WithIds(msgs: seq<(string, ChatMessage)>): (r: seq<(string, ChatMessage)>)
    ensures |r| == |msgs|
    ensures forall j :: 0 <= j < |r| ==> r[j].0 == msgs[j].0 && r[j].1 == msgs[j].1.(id := msgs[j].0)
  {
    seq(|msgs|, j requires 0 <= j < |msgs| => (msgs[j].0, msgs[j].1.(id := msgs[j].0)))
  }

  /** `maxOfOrNull { it.timestamps } ?: 0L`. */
  function MaxTimestampOr0(ms: seq<ChatMessage>): int {
    if ms == [] then 0 else ms[MaxIndex(ms)].timestamps
  }

  /** The session `getChatSessions` builds for one entry of the chats map. */
  function ToSession(sessionId: string, msgs: seq<(string, ChatMessage)>): ChatSession {
    var withIds := WithIds(msgs);
    ChatSession(sessionId := sessionId, messages := withIds, lastMessageTime := MaxTimestampOr0(Values(withIds)))
  }

  /** The sessions in the chats map's own order, before sorting. */
  function SessionsInMapOrder(u: UserChats): seq<ChatSession> {
    seq(|u.chats|, i requires 0 <= i < |u.chats| => ToSession(u.chats[i].0, u.chats[i].1))
  }

  function LastTime(s: ChatSession): int {
    s.lastMessageTime
  }

  /** `getChatSessions`: the sessions, most recent first. */
  function GetChatSessions(u: UserChats): (r: seq<ChatSession>)
    ensures multiset(r) == multiset(SessionsInMapOrder(u))
    ensures forall i, j :: 0 <= i < j < |r| ==> r[i].lastMessageTime >= r[j].lastMessageTime
  {
    SortByDescending(SessionsInMapOrder(u), LastTime)
  }

  /** Sessions with the same time are listed in the order of the chats map. */
  lemma SameTimeSessionsKeepMapOrder(u: UserChats, t: int)
    ensures WithKey(GetChatSessions(u), LastTime, t) == WithKey(SessionsInMapOrder(u), LastTime, t)
  {
    SortByDescendingStable(SessionsInMapOrder(u), LastTime, t);
  }

  /** A built session's time is its last message's timestamp, or 0 when it has none. */
  predicate TimeMatchesLastMessage(s: ChatSession) {
    s.lastMessageTime == match s.GetLastMessage() case Some(m) => m.timestamps case None => 0
  }

  /** Every message in a built session carries its own key as its id. */
  predicate IdsAreKeys(s: ChatSession) {
    forall j :: 0 <= j < |s.messages| ==> s.messages[j].1.id == s.messages[j].0
  }

  /**
   * Every chat of the map is listed as a session built from it, with the
   * chat's key as its id, no name, each message's key as its id, and the
   * time of its last message; as many sessions are listed as there are
   * chats, and nothing else is listed.
   */
  lemma ChatSessionsFaithful(u: UserChats)
    ensures |GetChatSessions(u)| == |u.chats|
    ensures forall i :: 0 <= i < |u.chats| ==>
      ToSession(u.chats[i].0, u.chats[i].1) in GetChatSessions(u)
    ensures forall s :: s in GetChatSessions(u) ==>
      s.sessionName == "" && IdsAreKeys(s) && TimeMatchesLastMessage(s)
      && exists i :: 0 <= i < |u.chats| && s.sessionId == u.chats[i].0
  {
    var r := GetChatSessions(u);
    var m := SessionsInMapOrder(u);
    assert |r| == |multiset(r)| == |multiset(m)| == |m|;
    forall s | s in r
      ensures s.sessionName == "" && IdsAreKeys(s) && TimeMatchesLastMessage(s)
      ensures exists i :: 0 <= i < |u.chats| && s.sessionId == u.chats[i].0
    {
      ListedSessionShape(u, s);
    }
    forall i | 0 <= i < |u.chats|
      ensures ToSession(u.chats[i].0, u.chats[i].1) in r
    {
      SameElements(m, r, i);
    }
  }

  /** A listed session is built from one of the chats. */
  lemma ListedSessionShape(u: UserChats, s: ChatSession)
    requires s in GetChatSessions(u)
    ensures s.sessionName == "" && IdsAreKeys(s) && TimeMatchesLastMessage(s)
    ensures exists i :: 0 <= i < |u.chats| && s.sessionId == u.chats[i].0
  {
    var m := SessionsInMapOrder(u);
    ListedIsBuilt(m, GetChatSessions(u), s);
    var i :| 0 <= i < |m| && m[i] == s;
    assert s == ToSession(u.chats[i].0, u.chats[i].1);
    BuiltSessionShape(u.chats[i].0, u.chats[i].1);
  }

  /** A session built from one chat has no name, its keys as ids and its last message's time. */
  lemma BuiltSessionShape(sessionId: string, msgs: seq<(string, ChatMessage)>)
    ensures var s := ToSession(sessionId, msgs);
      s.sessionId == sessionId && s.sessionName == "" && IdsAreKeys(s) && TimeMatchesLastMessage(s)
  {
  }

  /** What a permutation holds, the original holds too. */
  lemma ListedIsBuilt<T>(m: seq<T>, r: seq<T>, s: T)
    requires multiset(r) == multiset(m) && s in r
    ensures s in m
  {
    assert s in multiset(r);
  }

  /** What sits at an index of one sequence is in any permutation of it. */
  lemma SameElements<T>(m: seq<T>, r: seq<T>, i: int)
    requires multiset(r) == multiset(m) && 0 <= i < |m|
    ensures m[i] in r
  {
    assert m[i] in multiset(m);
  }

  /** The keys of a chats map are distinct. */
  predicate DistinctKeys(u: UserChats) {
    forall i, j :: 0 <= i < j < |u.chats| ==> u.chats[i].0 != u.chats[j].0
  }

  /**
   * Since a map's keys are distinct, no two listed sessions share an id:
   * each chat is listed exactly once.
   */
  lemma ChatSessionIdsDistinct(u: UserChats)
    requires DistinctKeys(u)
    ensures var r := GetChatSessions(u);
      forall i, j :: 0 <= i < j < |r| ==> r[i].sessionId != r[j].sessionId
  {
    var r := GetChatSessions(u);
    var m := SessionsInMapOrder(u);
    assert multiset(r) == multiset(m);
    assert forall k :: 0 <= k < |m| ==> m[k].sessionId == u.chats[k].0;
    forall i, j | 0 <= i < j < |r|
      ensures r[i].sessionId != r[j].sessionId
    {
      if r[i].sessionId == r[j].sessionId {
        SameElements(r, m, i);
        SameElements(r, m, j);
        var k :| 0 <= k < |m| && m[k] == r[i];
        var l :| 0 <= l < |m| && m[l] == r[j];
        assert m[k].sessionId == m[l].sessionId;
        OnlyOnce(m, k);
        TwiceCounted(r, i, j);
        assert false;
      }
    }
  }

  /** A value found at two indices is counted at least twice. */
  lemma TwiceCounted<T>(s: seq<T>, i: int, j: int)
    requires 0 <= i < j < |s| && s[i] == s[j]
    ensures multiset(s)[s[j]] >= 2
  {
    assert s == s[..j] + [s[j]] + s[j+1..];
    assert s[i] in s[..j];
  }

  /** An element whose value occurs at no other index occurs once in the multiset. */
  lemma OnlyOnce<T>(s: seq<T>, k: int)
    requires 0 <= k < |s|
    requires forall l :: 0 <= l < |s| && s[l] == s[k] ==> l == k
    ensures multiset(s)[s[k]] == 1
  {
    assert s == s[..k] + [s[k]] + s[k+1..];
    assert s[k] !in s[..k];
    assert s[k] !in s[k+1..];
  }

  /** An unnamed session whose id has no `_` is titled "Chat Session". */
  lemma DisplayNameWithoutUnderscore(s: ChatSession)
    requires IsBlank(s.sessionName) && '_' !in s.sessionId
    ensures s.GetDisplayName() == "Chat Session"
  {
    SplitWithoutSep(s.sessionId, '_');
  }

  /** An unnamed session whose id has exactly one `_` is titled "Chat Session". */
  lemma DisplayNameOfTwoPieces(s: ChatSession, a: string, b: string)
    requires IsBlank(s.sessionName) && '_' !in a && '_' !in b
    requires s.sessionId == a + "_" + b
    ensures s.GetDisplayName() == "Chat Session"
  {
    SplitAround(a, b, '_');
    SplitWithoutSep(a, '_');
    SplitWithoutSep(b, '_');
  }

  /**
   * An unnamed session whose id has two `_`-separated pieces before a last
   * piece `c` without `_` is titled "Chat " and the first eight characters
   * of `c`, whatever the other pieces hold.
   */
  lemma DisplayNameOfThreePieces(s: ChatSession, a: string, b: string, c: string)
    requires IsBlank(s.sessionName) && '_' !in c
    requires s.sessionId == a + "_" + b + "_" + c
    ensures s.GetDisplayName() == "Chat " + Take(c, 8)
  {
    SplitAroundTwo(a, b, c, '_');
    SplitWithoutSep(c, '_');
    var parts := Split(s.sessionId, '_');
    assert parts == Split(a, '_') + Split(b, '_') + [c];
    assert |parts| >= 3 && parts[|parts| - 1] == c;
  }

  /**
   * A session whose id was generated by the chat client and that has no
   * name shows "Chat " and the first eight random letters of its id.
   */
  lemma DisplayNameOfGeneratedId(s: ChatSession, nowMillis: nat, draw: nat -> ArthaApi.LowerLetter)
    requires s.sessionId == ArthaApi.GenerateSessionId(nowMillis, draw)
    requires IsBlank(s.sessionName)
    ensures s.GetDisplayName() == "Chat " + ArthaApi.RandomSuffix(draw)[..8]
  {
    ArthaApi.GeneratedIdParts(nowMillis, draw);
  }
}

=== FILE: gateway.dfy ===
/**
 * `McpRepository`: the local session store (two keys in a private
 * preferences file), the two-step login handshake, and the twelve tool
 * fetches that turn a gateway response into a `Result`.
 */
module Gateway {
  import opened Wrappers
  import opened Text
  import opened Http
  import opened ApiModels
  import opened McpApi

  const KEY_PHONE_NUMBER: string := "phone_number"
  const KEY_SESSION_ID: string := "session_id"

  /** The gateway session token: one constant, used for every login and every fetch. */
  const SESSION_ID: string := "mcp-session-594e48ea-fea1-40ef-8c52-7552dd9272af"

  const AUTH_SUCCESS: string := "Authentication successful"
  const SESSION_STEP_FAILED: string := "Session generation failed"
  const LOGIN_STEP_FAILED: string := "Login failed"
  const NO_DATA: string := "No data"
  const EMPTY_RESPONSE: string := "Empty response received"
  const PARSE_FAILURE: string := "Failed to parse response: "

  // ---------------------------------------------------------------------
  // Failure messages that name an HTTP status

  /** `"<step>: HTTP <code>"`. */
  function HttpFailure(step: string, code: nat): string {
    step + ": HTTP " + NatToString(code)
  }

  /** The status code a message of the form `"<step>: HTTP <code>"` names. */
  function StatusIn(step: string, message: string): Option<nat> {
    var prefix := step + ": HTTP ";
    if StartsWith(message, prefix) && |message| > |prefix| && AllDigits(message[|prefix|..])
    then Some(ParseNat(message[|prefix|..]))
    else None
  }

  /** The status code can be read back from the failure message. */
  lemma StatusInHttpFailure(step: string, code: nat)
    ensures StatusIn(step, HttpFailure(step, code)) == Some(code)
  {
    var prefix := step + ": HTTP ";
    var m := HttpFailure(step, code);
    assert m == prefix + NatToString(code);
    assert m[|prefix|..] == NatToString(code);
    ParseNatToString(code);
  }

  // ---------------------------------------------------------------------
  // Tool fetches

  /** The first part of a fetch's HTTP failure message. */
  function FetchLabel(t: Tool): string {
    match t
    case BankTransactions => "Failed to fetch bank transactions"
    case NetWorth => "Failed to fetch net worth"
    case EpfDetails => "Failed to fetch EPF details"
    case CreditReport => "Failed to fetch credit report"
    case MfTransactions => "Failed to fetch MF transactions"
    case StockTransactions => "Failed to fetch stock transactions"
  }

  /** The request every fetch of tool `t` issues. */
  function FetchRequest(t: Tool): HttpRequest {
    ToolCall(SESSION_ID, ToolRequest(t))
  }

  /**
   * A fetch sends the constant session token, never a stored one, in a
   * JSON-RPC `tools/call` request naming exactly tool `t`.
   */
  lemma FetchRequestShape(t: Tool)
    ensures FetchRequest(t).PostJson? && FetchRequest(t).path == "mcp/stream"
    ensures Lookup(FetchRequest(t).headers, "Mcp-Session-Id") == Some(SESSION_ID)
    ensures Lookup(FetchRequest(t).headers, "Content-Type") == Some("application/json")
    ensures IsToolCallFor(FetchRequest(t).body, t)
  {
  }

  /** `response.body()?.result?.content?.firstOrNull()?.text`. */
  function FirstText(body: Option<JsonRpcResponse>): Option<string> {
    if body.Some? && body.value.result.Some? && body.value.result.value.content.Some?
       && |body.value.result.value.content.value| > 0
    then body.value.result.value.content.value[0].text
    else None
  }

  /**
   * The raw fetches (`fetchBankTransactions` ... `fetchStockTransactions`):
   * the first content item's text on a 2xx response, or "No data" when
   * there is none.
   */
  function FetchRaw(t: Tool, ex: Exchange<JsonRpcResponse>): (r: Result<string>)
    ensures r.Success? <==> Succeeded(ex)
    ensures Succeeded(ex) ==> r.value == FirstText(ex.response.body).GetOr(NO_DATA)
    ensures ex.Answered? && !Succeeded(ex) ==>
      r.message.Some? && StatusIn(FetchLabel(t), r.message.value) == Some(ex.response.code)
    ensures ex.Threw? ==> r == Failure(ex.message)
  {
    match ex
    case Threw(m) => Failure(m)
    case Answered(resp) =>
      if IsSuccessful(resp.code) then Success(FirstText(resp.body).GetOr(NO_DATA))
      else
        StatusInHttpFailure(FetchLabel(t), resp.code);
        Fail(HttpFailure(FetchLabel(t), resp.code))
  }

  /**
   * The parsed fetches (`fetchBankTransactionsParsed` ...): the first content
   * item's text, or "" when there is none, is handed to the decoder unless
   * it is empty. A decoder answer of `null` is a success holding `null`.
   */
  function FetchParsed<R>(t: Tool, ex: Exchange<JsonRpcResponse>, decode: string -> Decoded<R>): (r: Result<Option<R>>)
    ensures !Succeeded(ex) ==> r.Failure?
    ensures Succeeded(ex) ==>
      var text := FirstText(ex.response.body).GetOr("");
      && (text == "" ==> r == Fail(EMPTY_RESPONSE))
      && (text != "" && decode(text).Ok? ==> r == Success(Some(decode(text).record)))
      && (text != "" && decode(text).Null? ==> r == Success(None))
      && (text != "" && decode(text).Malformed? ==> r.Failure?)
  {
    match ex
    case Threw(m) => Failure(m)
    case Answered(resp) =>
      if IsSuccessful(resp.code) then
        var text := FirstText(resp.body).GetOr("");
        if text != "" then
          match decode(text)
          case Ok(record) => Success(Some(record))
          case Null => Success(None)
          case Malformed(detail) => Fail(PARSE_FAILURE + detail.GetOr("null"))
        else Fail(EMPTY_RESPONSE)
      else Fail(HttpFailure(FetchLabel(t), resp.code))
  }

  /**
   * A parsed fetch tells "nothing came back" from "garbage came back": on a
   * 2xx response it fails with exactly "Empty response received" iff the
   * text is empty or absent, and a decode failure is reported as a parse
   * failure instead.
   */
  lemma EmptyAndMalformedDistinct<R>(t: Tool, ex: Exchange<JsonRpcResponse>, decode: string -> Decoded<R>)
    requires Succeeded(ex)
    ensures var text := FirstText(ex.response.body).GetOr("");
      && (FetchParsed(t, ex, decode) == Fail(EMPTY_RESPONSE) <==> text == "")
      && (text != "" && decode(text).Malformed? ==>
            FetchParsed(t, ex, decode).Failure? && FetchParsed(t, ex, decode).message.Some?
            && StartsWith(FetchParsed(t, ex, decode).message.value, PARSE_FAILURE))
  {
    var text := FirstText(ex.response.body).GetOr("");
    if text != "" && decode(text).Malformed? {
      var m := PARSE_FAILURE + decode(text).detail.GetOr("null");
      assert m[0] != EMPTY_RESPONSE[0];
      assert PARSE_FAILURE <= m;
    }
  }

  /**
   * The raw and parsed variants agree: they fail alike when the exchange
   * failed, and a parsed success is the decoder's answer for the raw
   * success text.
   */
  lemma ParsedRefinesRaw<R>(t: Tool, ex: Exchange<JsonRpcResponse>, decode: string -> Decoded<R>)
    ensures !Succeeded(ex) ==>
      FetchParsed(t, ex, decode).Failure? && FetchParsed(t, ex, decode).message == FetchRaw(t, ex).message
    ensures FetchParsed(t, ex, decode).Success? ==>
      FetchRaw(t, ex).Success?
      && decode(FetchRaw(t, ex).value) == match FetchParsed(t, ex, decode).value
                                          case Some(record) => Ok(record)
                                          case None => Null
  {
  }

  // ---------------------------------------------------------------------
  // Login handshake

  /** The requests `authenticate` issues: the login step only after a 2xx bootstrap. */
  function AuthRequests(phoneNumber: string, bootstrap: Exchange<string>): seq<HttpRequest> {
    [SessionBootstrapCall(SESSION_ID)] + if Succeeded(bootstrap) then [LoginCall(SESSION_ID, phoneNumber)] else []
  }

  /** The result of `authenticate` given the answers to its two steps. */
  function AuthOutcome(bootstrap: Exchange<string>, login: Exchange<string>): (r: Result<string>)
    ensures r.Success? <==> Succeeded(bootstrap) && Succeeded(login)
    ensures r.Success? ==> r.value == AUTH_SUCCESS
    ensures bootstrap.Threw? ==> r == Failure(bootstrap.message)
    ensures bootstrap.Answered? && !Succeeded(bootstrap) ==>
      r.message.Some? && StatusIn(SESSION_STEP_FAILED, r.message.value) == Some(bootstrap.response.code)
    ensures Succeeded(bootstrap) && login.Threw? ==> r == Failure(login.message)
    ensures Succeeded(bootstrap) && login.Answered? && !Succeeded(login) ==>
      r.message.Some? && StatusIn(LOGIN_STEP_FAILED, r.message.value) == Some(login.response.code)
  {
    match bootstrap
    case Threw(m) => Failure(m)
    case Answered(first) =>
      if !IsSuccessful(first.code) then
        StatusInHttpFailure(SESSION_STEP_FAILED, first.code);
        Fail(HttpFailure(SESSION_STEP_FAILED, first.code))
      else
        match login
        case Threw(m) => Failure(m)
        case Answered(second) =>
          if !IsSuccessful(second.code) then
            StatusInHttpFailure(LOGIN_STEP_FAILED, second.code);
            Fail(HttpFailure(LOGIN_STEP_FAILED, second.code))
          else Success(AUTH_SUCCESS)
  }

  /** The repository and its `mcp_prefs` preferences file. */
  class McpRepository {
    /** The private preferences file, key to value. */
    var prefs: map<string, string>

    constructor (stored: map<string, string>)
      ensures prefs == stored
    {
      prefs := stored;
    }

    function GetStoredPhoneNumber(): Option<string>
      reads this
    {
      if KEY_PHONE_NUMBER in prefs then Some(prefs[KEY_PHONE_NUMBER]) else None
    }

    /** Logged in means a phone number is stored. */
    function IsLoggedIn(): (b: bool)
      reads this
      ensures b <==> GetStoredPhoneNumber().Some?
    {
      KEY_PHONE_NUMBER in prefs
    }

    /** Removes both keys; a second call changes nothing. */
    method Logout()
      modifies this
      ensures prefs == old(prefs) - {KEY_PHONE_NUMBER, KEY_SESSION_ID}
      ensures !IsLoggedIn() && GetStoredPhoneNumber() == None
      ensures old(KEY_PHONE_NUMBER !in prefs && KEY_SESSION_ID !in prefs) ==> prefs == old(prefs)
    {
      prefs := prefs - {KEY_PHONE_NUMBER};
      prefs := prefs - {KEY_SESSION_ID};
    }

    /**
     * The two-step handshake. It stops at the first step that throws or
     * answers outside 2xx, and only a complete success writes the store.
     */
    method Authenticate(phoneNumber: string, bootstrap: Exchange<string>, login: Exchange<string>)
      returns (sent: seq<HttpRequest>, r: Result<string>)
      modifies this
      ensures sent == AuthRequests(phoneNumber, bootstrap)
      ensures r == AuthOutcome(bootstrap, login)
      ensures r.Success? ==> prefs == old(prefs)[KEY_PHONE_NUMBER := phoneNumber][KEY_SESSION_ID := SESSION_ID]
      ensures r.Success? ==> IsLoggedIn() && GetStoredPhoneNumber() == Some(phoneNumber)
      ensures r.Failure? ==> prefs == old(prefs)
    {
      sent := [SessionBootstrapCall(SESSION_ID)];
      if bootstrap.Threw? {
        return sent, Failure(bootstrap.message);
      }
      if !IsSuccessful(bootstrap.response.code) {
        return sent, Fail(HttpFailure(SESSION_STEP_FAILED, bootstrap.response.code));
      }
      sent := sent + [LoginCall(SESSION_ID, phoneNumber)];
      if login.Threw? {
        return sent, Failure(login.message);
      }
      if !IsSuccessful(login.response.code) {
        return sent, Fail(HttpFailure(LOGIN_STEP_FAILED, login.response.code));
      }
      prefs := prefs[KEY_PHONE_NUMBER := phoneNumber];
      prefs := prefs[KEY_SESSION_ID := SESSION_ID];
      r := Success(AUTH_SUCCESS);
    }
  }
}

=== FILE: http.dfy ===
/** The boundary to the network: what an HTTP call gives back to the app. */
module Http {
  import opened Wrappers

  /** A response as the app reads it: status code, reason phrase, body if any. */
  datatype Response<B> = Response(code: nat, message: string, body: Option<B>)

  /**
   * Retrofit's and OkHttp's `isSuccessful`: the status is in the 2xx class,
   * which section 15.3 of RFC 9110 defines as "the request was received,
   * understood and accepted".
   */
  predicate IsSuccessful(code: nat) {
    200 <= code <= 299
  }

  /** The value of the first header or field named `name`, if any. */
  function Lookup(pairs: seq<(string, string)>, name: string): Option<string> {
    if pairs == [] then None
    else if pairs[0].0 == name then Some(pairs[0].1)
    else Lookup(pairs[1..], name)
  }

  /** One network call: either the server answered, or the call threw. */
  datatype Exchange<B> = Answered(response: Response<B>) | Threw(message: Option<string>)

  predicate Succeeded<B>(ex: Exchange<B>) {
    ex.Answered? && IsSuccessful(ex.response.code)
  }

  /**
   * The outcome of a Gson `fromJson` call, which is not modelled: it yields
   * a record, or `null` (Gson's answer for a document that is blank or the
   * literal `null`), or throws a `JsonSyntaxException` with a detail message.
   */
  datatype Decoded<R> = Ok(record: R) | Null | Malformed(detail: Option<string>)
}

=== FILE: mcp_api.dfy ===
/**
 * The gateway's HTTP surface as the Retrofit interface declares it: the
 * session bootstrap, the login simulation, and the six tool calls, which
 * are JSON-RPC 2.0 requests for the Model Context Protocol's `tools/call`
 * method.
 */
module McpApi {
  import opened Wrappers
  import opened Text
  import opened Http

  /** The six data tools the gateway offers. */
  datatype Tool =
    | BankTransactions
    | NetWorth
    | EpfDetails
    | CreditReport
    | MfTransactions
    | StockTransactions

  /** The tool's name as sent in `params.name`. */
  function ToolName(t: Tool): string {
    match t
    case BankTransactions => "fetch_bank_transactions"
    case NetWorth => "fetch_net_worth"
    case EpfDetails => "fetch_epf_details"
    case CreditReport => "fetch_credit_report"
    case MfTransactions => "fetch_mf_transactions"
    case StockTransactions => "fetch_stock_transactions"
  }

  /** The tool a `params.name` designates, if any. */
  function ToolNamed(name: string): (r: Option<Tool>)
    ensures r.Some? ==> ToolName(r.value) == name
  {
    if name == "fetch_bank_transactions" then Some(BankTransactions)
    else if name == "fetch_net_worth" then Some(NetWorth)
    else if name == "fetch_epf_details" then Some(EpfDetails)
    else if name == "fetch_credit_report" then Some(CreditReport)
    else if name == "fetch_mf_transactions" then Some(MfTransactions)
    else if name == "fetch_stock_transactions" then Some(StockTransactions)
    else None
  }

  /** Every tool's name designates that tool again, so no two tools share a name. */
  lemma ToolNamedInverse(t: Tool)
    ensures ToolNamed(ToolName(t)) == Some(t)
  {
    match t
    case BankTransactions =>
    case NetWorth =>
    case EpfDetails =>
    case CreditReport =>
    case MfTransactions =>
    case StockTransactions =>
  }

  /** `JsonRpcParams`: the tool name and its arguments, empty unless given. */
  datatype JsonRpcParams = JsonRpcParams(name: string, arguments: map<string, string> := map[])

  /** `JsonRpcRequest`, with the defaults of the Kotlin data class. */
  datatype JsonRpcRequest = JsonRpcRequest(
    jsonrpc: string := "2.0",
    id: int := 1,
    methodName: string := "tools/call",
    params: JsonRpcParams)

  /**
   * A request object as section 4 of the JSON-RPC 2.0 Specification defines
   * it: `jsonrpc` is exactly "2.0", the method name is not one of the
   * reserved `rpc.` names, and an id is present, so it is not a
   * notification and expects a response.
   */
  predicate IsJsonRpcRequest(r: JsonRpcRequest) {
    r.jsonrpc == "2.0" && !StartsWith(r.methodName, "rpc.")
  }

  /** A Model Context Protocol tool invocation naming a known tool with no arguments. */
  predicate IsToolCallFor(r: JsonRpcRequest, t: Tool) {
    IsJsonRpcRequest(r) && r.methodName == "tools/call"
    && ToolNamed(r.params.name) == Some(t) && r.params.arguments == map[]
  }

  /** The request the repository builds for a tool: only its params are given. */
  function ToolRequest(t: Tool): (r: JsonRpcRequest)
    ensures IsToolCallFor(r, t) && r.id == 1
  {
    ToolNamedInverse(t);
    assert !StartsWith("tools/call", "rpc.") by { assert "rpc."[0] != "tools/call"[0]; }
    JsonRpcRequest(params := JsonRpcParams(name := ToolName(t)))
  }

  /** An outgoing HTTP request, relative to the gateway's base URL. */
  datatype HttpRequest =
    | Get(path: string, query: seq<(string, string)>)
    | PostForm(path: string, fields: seq<(string, string)>)
    | PostJson(path: string, headers: seq<(string, string)>, body: JsonRpcRequest)

  /** `generateSessionId`: GET `mockWebPage?sessionId=<token>`. */
  function SessionBootstrapCall(sessionId: string): (r: HttpRequest)
    ensures r.Get? && r.path == "mockWebPage" && Lookup(r.query, "sessionId") == Some(sessionId)
  {
    Get("mockWebPage", [("sessionId", sessionId)])
  }

  /** `loginSim`: a form-encoded POST to `login`. */
  function LoginCall(sessionId: string, phoneNumber: string): (r: HttpRequest)
    ensures r.PostForm? && r.path == "login"
    ensures Lookup(r.fields, "sessionId") == Some(sessionId)
    ensures Lookup(r.fields, "phoneNumber") == Some(phoneNumber)
  {
    PostForm("login", [("sessionId", sessionId), ("phoneNumber", phoneNumber)])
  }

  /**
   * Any of the six tool-call methods (`fetchBankTransactions` ...
   * `fetchStockTransactions`): they are declared alike and differ only in
   * their Kotlin names.
   */
  function ToolCall(sessionId: string, body: JsonRpcRequest, contentType: string := "application/json"): (r: HttpRequest)
    ensures r.PostJson? && r.path == "mcp/stream" && r.body == body
    ensures Lookup(r.headers, "Mcp-Session-Id") == Some(sessionId)
    ensures Lookup(r.headers, "Content-Type") == Some(contentType)
  {
    PostJson("mcp/stream", [("Content-Type", contentType), ("Mcp-Session-Id", sessionId)], body)
  }
}

=== FILE: navigation.dfy ===
/**
 * The app's navigation graph (`McpNavigation`): where the splash screen
 * goes, how the dashboard's section strings become routes, and which
 * routes the graph has a screen for, with the arguments the chat screen
 * receives.
 */
module Navigation {
  import opened Wrappers
  import opened Text
  import opened Http
  import ArthaApi
  import ViewModel
  import ChatBottomSheet

  // The route names of `McpDestinations`.
  const SPLASH_ROUTE: string := "splash"
  const AUTH_ROUTE: string := "auth"
  const MAIN_ROUTE: string := "main"
  const DASHBOARD_ROUTE: string := "dashboard"
  const DETAILS_ROUTE: string := "details"
  const ANALYTICS_ROUTE: string := "analytics"
  const TRANSACTIONS_ROUTE: string := "transactions"
  const INVESTMENTS_ROUTE: string := "investments"
  const NETWORTH_ROUTE: string := "networth"
  const CHAT_DETAILS_ROUTE: string := "chat_details"

  const CHAT_SECTION_PREFIX: string := "chat/"

  /** The user id a chat route carries when no phone number is stored. */
  const DEFAULT_USER_ID: string := "1313131313"

  /** Where the splash animation leads: the dashboard when logged in, else the sign-in screen. */
  function SplashDestination(isLoggedIn: bool): (route: string)
    ensures route == DASHBOARD_ROUTE <==> isLoggedIn
    ensures route == AUTH_ROUTE <==> !isLoggedIn
  {
    if isLoggedIn then DASHBOARD_ROUTE else AUTH_ROUTE
  }

  /** `viewModel.getStoredPhoneNumber() ?: "1313131313"`. */
  function ChatUserId(storedPhone: Option<string>): string {
    storedPhone.GetOr(DEFAULT_USER_ID)
  }

  /**
   * `onNavigateToDetails`: the four named sections go to their own
   * routes, "chat/<id>" goes to the chat screen with the stored phone
   * number, and anything else to "details/<section>".
   */
  function DetailsRoute(section: string, storedPhone: Option<string>): (route: string)
    ensures section in [TRANSACTIONS_ROUTE, INVESTMENTS_ROUTE, NETWORTH_ROUTE, ANALYTICS_ROUTE] ==> route == section
    ensures (section !in [TRANSACTIONS_ROUTE, INVESTMENTS_ROUTE, NETWORTH_ROUTE, ANALYTICS_ROUTE]
             && StartsWith(section, CHAT_SECTION_PREFIX)) ==>
      route == CHAT_DETAILS_ROUTE + "/" + section[|CHAT_SECTION_PREFIX|..] + "/" + ChatUserId(storedPhone)
    ensures (section !in [TRANSACTIONS_ROUTE, INVESTMENTS_ROUTE, NETWORTH_ROUTE, ANALYTICS_ROUTE]
             && !StartsWith(section, CHAT_SECTION_PREFIX)) ==>
      route == DETAILS_ROUTE + "/" + section
  {
    if section == TRANSACTIONS_ROUTE then TRANSACTIONS_ROUTE
    else if section == INVESTMENTS_ROUTE then INVESTMENTS_ROUTE
    else if section == NETWORTH_ROUTE then NETWORTH_ROUTE
    else if section == ANALYTICS_ROUTE then ANALYTICS_ROUTE
    else if StartsWith(section, CHAT_SECTION_PREFIX) then
      var sessionId := RemovePrefix(section, CHAT_SECTION_PREFIX);
      CHAT_DETAILS_ROUTE + "/" + sessionId + "/" + ChatUserId(storedPhone)
    else DETAILS_ROUTE + "/" + section
  }

  /**
   * `backStackEntry.arguments?.getString(name) ?: ""`: the named argument,
   * or the empty string when there are no arguments or it is missing.
   */
  function ChatArgument(arguments: Option<seq<(string, string)>>, name: string): (r: string)
    ensures arguments.None? ==> r == ""
    ensures arguments.Some? && Lookup(arguments.value, name).Some? ==> r == Lookup(arguments.value, name).value
    ensures arguments.Some? && Lookup(arguments.value, name).None? ==> r == ""
  {
    match arguments
    case None => ""
    case Some(args) => Lookup(args, name).GetOr("")
  }

  /** The screens the graph registers. */
  datatype Screen =
    | Splash
    | Auth
    | Dashboard
    | TransactionsScreen
    | InvestmentsScreen
    | NetWorthScreen
    | ChatDetailsScreen(sessionId: string, userId: string)

  /**
   * The screen a route reaches: one of the six fixed routes, or
   * "chat_details/{sessionId}/{userId}", whose two path segments are
   * handed over as the string arguments "sessionId" and "userId". Every
   * other route reaches nothing.
   */
  function Destination(route: string): (r: Option<Screen>)
    ensures r.Some? && !r.value.ChatDetailsScreen? <==>
      route in [SPLASH_ROUTE, AUTH_ROUTE, DASHBOARD_ROUTE, TRANSACTIONS_ROUTE, INVESTMENTS_ROUTE, NETWORTH_ROUTE]
    ensures r.Some? && r.value.ChatDetailsScreen? ==>
      route == CHAT_DETAILS_ROUTE + "/" + r.value.sessionId + "/" + r.value.userId
      && '/' !in r.value.sessionId && '/' !in r.value.userId
  {
    if route == SPLASH_ROUTE then Some(Splash)
    else if route == AUTH_ROUTE then Some(Auth)
    else if route == DASHBOARD_ROUTE then Some(Dashboard)
    else if route == TRANSACTIONS_ROUTE then Some(TransactionsScreen)
    else if route == INVESTMENTS_ROUTE then Some(InvestmentsScreen)
    else if route == NETWORTH_ROUTE then Some(NetWorthScreen)
    else
      var parts := Split(route, '/');
      if |parts| == 3 && parts[0] == CHAT_DETAILS_ROUTE then
        var arguments := Some([("sessionId", parts[1]), ("userId", parts[2])]);
        ChatArguments(parts[1], parts[2]);
        RouteOfThreeParts(route);
        Some(ChatDetailsScreen(ChatArgument(arguments, "sessionId"), ChatArgument(arguments, "userId")))
      else None
  }

  /** The two path segments come back out of the chat screen's arguments under their names. */
  lemma ChatArguments(sessionId: string, userId: string)
    ensures var arguments := Some([("sessionId", sessionId), ("userId", userId)]);
      ChatArgument(arguments, "sessionId") == sessionId && ChatArgument(arguments, "userId") == userId
  {
    var args := [("sessionId", sessionId), ("userId", userId)];
    assert Lookup(args, "sessionId") == Some(sessionId);
    assert args[1..] == [("userId", userId)];
    assert Lookup(args, "userId") == Some(userId);
  }

  /** A route that splits into three segments is those segments joined by '/', none containing '/'. */
  lemma RouteOfThreeParts(route: string)
    requires |Split(route, '/')| == 3
    ensures var parts := Split(route, '/');
      route == parts[0] + "/" + parts[1] + "/" + parts[2]
      && '/' !in parts[1] && '/' !in parts[2]
  {
    var parts := Split(route, '/');
    JoinSplit(route, '/');
    SplitPartsAvoidSep(route, '/');
    var tail := parts[1..];
    assert |tail| == 2 && tail[0] == parts[1] && tail[1..] == [parts[2]];
    assert Join(tail[1..], '/') == parts[2];
    assert Join(tail, '/') == parts[1] + ['/'] + parts[2];
    assert Join(parts, '/') == parts[0] + ['/'] + Join(tail, '/');
  }

  /** The splash screen always leads to a registered screen: the dashboard or sign-in. */
  lemma SplashReachesScreen(isLoggedIn: bool)
    ensures Destination(SplashDestination(isLoggedIn)) == if isLoggedIn then Some(Dashboard) else Some(Auth)
  {
  }

  /** For a consistent view model the splash screen goes to the dashboard exactly when a phone number is stored. */
  lemma SplashFollowsStore(vm: ViewModel.McpViewModel)
    requires vm.Valid()
    ensures SplashDestination(vm.isLoggedIn) == DASHBOARD_ROUTE <==> vm.GetStoredPhoneNumber().Some?
  {
    ViewModel.StoredPhoneIffLoggedIn(vm);
  }

  /** A chat route is split into the route name, then the pieces of the id, then those of the user id. */
  lemma ChatRouteParts(id: string, user: string)
    ensures Split(CHAT_DETAILS_ROUTE + "/" + id + "/" + user, '/')
         == [CHAT_DETAILS_ROUTE] + Split(id, '/') + Split(user, '/')
  {
    SplitAroundTwo(CHAT_DETAILS_ROUTE, id, user, '/');
    SplitWithoutSep(CHAT_DETAILS_ROUTE, '/');
  }

  /** The chat route reaches the chat screen exactly when neither argument contains '/'. */
  lemma ChatRouteReaches(id: string, user: string)
    ensures Destination(CHAT_DETAILS_ROUTE + "/" + id + "/" + user).Some? <==> '/' !in id && '/' !in user
    ensures '/' !in id && '/' !in user ==>
      Destination(CHAT_DETAILS_ROUTE + "/" + id + "/" + user) == Some(ChatDetailsScreen(id, user))
  {
    var route := CHAT_DETAILS_ROUTE + "/" + id + "/" + user;
    assert |route| > 12 && route[..12] == CHAT_DETAILS_ROUTE;
    ChatRouteParts(id, user);
    SplitSingleIff(id, '/');
    SplitSingleIff(user, '/');
    if '/' !in id && '/' !in user {
      SplitWithoutSep(id, '/');
      SplitWithoutSep(user, '/');
      assert Split(route, '/') == [CHAT_DETAILS_ROUTE, id, user];
      ChatArguments(id, user);
    }
  }

  /** No "details/<section>" route has a screen. */
  lemma DetailsFallbackUnreached(section: string)
    ensures Destination(DETAILS_ROUTE + "/" + section) == None
  {
    var route := DETAILS_ROUTE + "/" + section;
    assert route == DETAILS_ROUTE + ['/'] + section;
    assert route[..8] == "details/";
    SplitAround(DETAILS_ROUTE, section, '/');
    SplitWithoutSep(DETAILS_ROUTE, '/');
    assert Split(route, '/')[0] == DETAILS_ROUTE;
  }

  /** The four named sections are not chat sections, and all but "analytics" reach their screens. */
  lemma NamedSectionRoute(section: string, storedPhone: Option<string>)
    requires section in [TRANSACTIONS_ROUTE, INVESTMENTS_ROUTE, NETWORTH_ROUTE, ANALYTICS_ROUTE]
    ensures !StartsWith(section, CHAT_SECTION_PREFIX)
    ensures Destination(DetailsRoute(section, storedPhone)).Some? <==> section != ANALYTICS_ROUTE
  {
    // None of them begins with 'c'.
    assert section[0] != CHAT_SECTION_PREFIX[0];
    if section == ANALYTICS_ROUTE {
      SplitWithoutSep(ANALYTICS_ROUTE, '/');
    }
  }

  /**
   * A section reaches a screen exactly when it is one of the three data
   * sections, or a chat section whose id and user id contain no '/'; the
   * chat screen then receives that id and user id. The "analytics"
   * section and every "details/<section>" route have no screen.
   */
  lemma DetailsRouteReaches(section: string, storedPhone: Option<string>)
    ensures Destination(DetailsRoute(section, storedPhone)).Some? <==>
      section in [TRANSACTIONS_ROUTE, INVESTMENTS_ROUTE, NETWORTH_ROUTE]
      || (StartsWith(section, CHAT_SECTION_PREFIX)
          && '/' !in section[|CHAT_SECTION_PREFIX|..] && '/' !in ChatUserId(storedPhone))
    ensures (StartsWith(section, CHAT_SECTION_PREFIX)
             && '/' !in section[|CHAT_SECTION_PREFIX|..] && '/' !in ChatUserId(storedPhone)) ==>
        Destination(DetailsRoute(section, storedPhone))
        == Some(ChatDetailsScreen(section[|CHAT_SECTION_PREFIX|..], ChatUserId(storedPhone)))
  {
    if section in [TRANSACTIONS_ROUTE, INVESTMENTS_ROUTE, NETWORTH_ROUTE, ANALYTICS_ROUTE] {
      NamedSectionRoute(section, storedPhone);
    } else if StartsWith(section, CHAT_SECTION_PREFIX) {
      var id, user := section[|CHAT_SECTION_PREFIX|..], ChatUserId(storedPhone);
      assert DetailsRoute(section, storedPhone) == CHAT_DETAILS_ROUTE + "/" + id + "/" + user;
      ChatRouteReaches(id, user);
    } else {
      assert DetailsRoute(section, storedPhone) == DETAILS_ROUTE + "/" + section;
      DetailsFallbackUnreached(section);
    }
  }

  /** A generated session id has no '/', since it is made of a prefix, digits, '_' and letters. */
  lemma GeneratedIdHasNoSlash(nowMillis: nat, draw: nat -> ArthaApi.LowerLetter)
    ensures '/' !in ArthaApi.GenerateSessionId(nowMillis, draw)
  {
    var digits := NatToString(nowMillis);
    var suffix := ArthaApi.RandomSuffix(draw);
    var id := ArthaApi.GenerateSessionId(nowMillis, draw);
    assert id == ArthaApi.SESSION_PREFIX + digits + "_" + suffix;
    forall i | 0 <= i < |id|
      ensures id[i] != '/'
    {
      if i < 8 {
        assert id[i] == ArthaApi.SESSION_PREFIX[i];
      } else if i < 8 + |digits| {
        assert id[i] == digits[i - 8];
      } else if i == 8 + |digits| {
        assert id[i] == '_';
      } else {
        assert id[i] == suffix[i - 9 - |digits|];
      }
    }
  }

  /**
   * A chat started from the sheet's New Chat button opens the chat screen
   * on that very id, for any stored phone number without a '/'.
   */
  lemma NewChatOpensItsScreen(nowMillis: nat, draw: nat -> ArthaApi.LowerLetter, storedPhone: Option<string>)
    requires '/' !in ChatUserId(storedPhone)
    ensures var id := ChatBottomSheet.NewChatClick(nowMillis, draw);
      Destination(DetailsRoute(CHAT_SECTION_PREFIX + id, storedPhone))
        == Some(ChatDetailsScreen(id, ChatUserId(storedPhone)))
  {
    var id := ChatBottomSheet.NewChatClick(nowMillis, draw);
    GeneratedIdHasNoSlash(nowMillis, draw);
    var section := CHAT_SECTION_PREFIX + id;
    assert StartsWith(section, CHAT_SECTION_PREFIX);
    assert section[|CHAT_SECTION_PREFIX|..] == id;
    DetailsRouteReaches(section, storedPhone);
  }
}

=== FILE: sorting.dfy ===
/**
 * Kotlin's `sortedBy` and `sortedByDescending` on lists: stable sorts by an
 * integer key. Both are written as one stable insertion sort; the stable
 * sorted order of a list is unique, so this is the order the library's
 * merge sort produces.
 */
module Sorting {

  predicate SortedBy<T>(s: seq<T>, key: T -> int) {
    forall i, j :: 0 <= i < j < |s| ==> key(s[i]) <= key(s[j])
  }

  /**
   * Inserts `x` into a sorted list after every element whose key is at
   * most `key(x)`; this keeps equal keys in their original order.
   */
  function Insert<T>(s: seq<T>, x: T, key: T -> int): (r: seq<T>)
    requires SortedBy(s, key)
    ensures SortedBy(r, key)
    ensures multiset(r) == multiset(s) + multiset{x}
  {
    if s == [] then [x]
    else if key(x) < key(s[0]) then [x] + s
    else
      var tail := Insert(s[1..], x, key);
      assert s == [s[0]] + s[1..];
      forall j | 0 <= j < |tail|
        ensures key(s[0]) <= key(tail[j])
      {
        assert tail[j] in multiset(tail);
        if tail[j] != x {
          assert tail[j] in multiset(s[1..]);
          SortedHeadIsLeast(s, tail[j], key);
        }
      }
      [s[0]] + tail
  }

  /** The first element of a sorted list has the least key. */
  lemma SortedHeadIsLeast<T>(s: seq<T>, e: T, key: T -> int)
    requires SortedBy(s, key) && s != []
    requires e in s[1..]
    ensures key(s[0]) <= key(e)
  {
    var k :| 0 <= k < |s[1..]| && s[1..][k] == e;
    assert s[k + 1] == e;
  }

  /** `s.sortedBy(key)`: a stable sort by ascending key. */
  function SortBy<T>(s: seq<T>, key: T -> int): (r: seq<T>)
    ensures SortedBy(r, key)
    ensures multiset(r) == multiset(s)
  {
    if s == [] then []
    else
      var prefix := s[..|s| - 1];
      assert s == prefix + [s[|s| - 1]];
      Insert(SortBy(prefix, key), s[|s| - 1], key)
  }

  /** `s.sortedByDescending(key)`: a stable sort by descending key. */
  function SortByDescending<T>(s: seq<T>, key: T -> int): (r: seq<T>)
    ensures forall i, j :: 0 <= i < j < |r| ==> key(r[i]) >= key(r[j])
    ensures multiset(r) == multiset(s)
  {
    var r := SortBy(s, (x: T) => -key(x));
    assert forall i, j :: 0 <= i < j < |r| ==> -key(r[i]) <= -key(r[j]);
    r
  }

  /** `s.reversed()`. */
  function Reverse<T>(s: seq<T>): (r: seq<T>)
    ensures |r| == |s|
    ensures forall i :: 0 <= i < |s| ==> r[i] == s[|s| - 1 - i]
  {
    if s == [] then [] else [s[|s| - 1]] + Reverse(s[..|s| - 1])
  }

  /** A list whose keys strictly increase sorts descending into its reverse. */
  lemma {:induction false} SortDescendingOfIncreasing<T>(s: seq<T>, key: T -> int)
    requires forall i, j :: 0 <= i < j < |s| ==> key(s[i]) < key(s[j])
    ensures SortByDescending(s, key) == Reverse(s)
  {
    SortOfStrictlyDecreasing(s, (x: T) => -key(x));
  }

  lemma {:induction false} SortOfStrictlyDecreasing<T>(s: seq<T>, key: T -> int)
    requires forall i, j :: 0 <= i < j < |s| ==> key(s[i]) > key(s[j])
    ensures SortBy(s, key) == Reverse(s)
  {
    if s != [] {
      var prefix := s[..|s| - 1];
      var last := s[|s| - 1];
      forall i, j | 0 <= i < j < |prefix|
        ensures key(prefix[i]) > key(prefix[j])
      {
        assert prefix[i] == s[i] && prefix[j] == s[j];
      }
      SortOfStrictlyDecreasing(prefix, key);
      var sorted := SortBy(prefix, key);
      assert sorted == Reverse(prefix);
      if sorted != [] {
        assert sorted[0] == prefix[|prefix| - 1] == s[|s| - 2];
        assert key(last) < key(sorted[0]);
      }
      assert s == prefix + [last];
      assert SortBy(s, key) == Insert(sorted, last, key) == [last] + sorted;
      assert Reverse(s) == [last] + Reverse(prefix);
    }
  }

  // ---------------------------------------------------------------------
  // Stability

  /** The elements whose key is `k`, in their order in `s`. */
  function WithKey<T>(s: seq<T>, key: T -> int, k: int): (r: seq<T>)
    ensures |r| <= |s|
    ensures forall i :: 0 <= i < |r| ==> key(r[i]) == k
  {
    if s == [] then []
    else (if key(s[0]) == k then [s[0]] else []) + WithKey(s[1..], key, k)
  }

  lemma {:induction false} WithKeyAppend<T>(a: seq<T>, b: seq<T>, key: T -> int, k: int)
    ensures WithKey(a + b, key, k) == WithKey(a, key, k) + WithKey(b, key, k)
  {
    if a != [] {
      assert (a + b)[0] == a[0] && (a + b)[1..] == a[1..] + b;
      WithKeyAppend(a[1..], b, key, k);
    } else {
      assert a + b == b;
    }
  }

  /** A sorted list whose first key is above `k` has no element with key `k`. */
  lemma {:induction false} WithKeyAboveAll<T>(s: seq<T>, key: T -> int, k: int)
    requires SortedBy(s, key) && (s == [] || k < key(s[0]))
    ensures WithKey(s, key, k) == []
  {
    if s != [] {
      assert SortedBy(s[1..], key);
      if s[1..] != [] {
        assert s[1..][0] == s[1];
      }
      WithKeyAboveAll(s[1..], key, k);
    }
  }

  /** Inserting `x` puts it after every element of equal key. */
  lemma {:induction false} InsertStable<T>(s: seq<T>, x: T, key: T -> int, k: int)
    requires SortedBy(s, key)
    ensures WithKey(Insert(s, x, key), key, k) == WithKey(s, key, k) + WithKey([x], key, k)
  {
    if s == [] {
    } else if key(x) < key(s[0]) {
      InsertInFront(s, x, key);
      WithKeyAppend([x], s, key, k);
      if key(x) == k {
        WithKeyAboveAll(s, key, k);
      }
    } else {
      InsertBehindHead(s, x, key);
      InsertStable(s[1..], x, key, k);
      KeepHeadInFront(s[0], s[1..], Insert(s[1..], x, key), x, key, k);
      assert [s[0]] + s[1..] == s;
    }
  }

  /** An element whose key is below the head's goes in front. */
  lemma InsertInFront<T>(s: seq<T>, x: T, key: T -> int)
    requires SortedBy(s, key) && s != [] && key(x) < key(s[0])
    ensures Insert(s, x, key) == [x] + s
  {
  }

  /** An element whose key is not below the head's goes into the tail. */
  lemma InsertBehindHead<T>(s: seq<T>, x: T, key: T -> int)
    requires SortedBy(s, key) && s != [] && key(s[0]) <= key(x)
    ensures SortedBy(s[1..], key)
    ensures Insert(s, x, key) == [s[0]] + Insert(s[1..], x, key)
  {
  }

  /** A head kept in front of both lists keeps the filters in step. */
  lemma KeepHeadInFront<T>(h: T, tail: seq<T>, inserted: seq<T>, x: T, key: T -> int, k: int)
    requires WithKey(inserted, key, k) == WithKey(tail, key, k) + WithKey([x], key, k)
    ensures WithKey([h] + inserted, key, k) == WithKey([h] + tail, key, k) + WithKey([x], key, k)
  {
    WithKeyAppend([h], inserted, key, k);
    WithKeyAppend([h], tail, key, k);
    var head, rest, last := WithKey([h], key, k), WithKey(tail, key, k), WithKey([x], key, k);
    assert head + (rest + last) == (head + rest) + last;
  }

  /**
   * `sortedBy` is stable: the elements of any one key come out in the
   * order they went in.
   */
  lemma {:induction false} SortByStable<T>(s: seq<T>, key: T -> int, k: int)
    ensures WithKey(SortBy(s, key), key, k) == WithKey(s, key, k)
  {
    if s != [] {
      var prefix := s[..|s| - 1];
      SortByStable(prefix, key, k);
      InsertStable(SortBy(prefix, key), s[|s| - 1], key, k);
      assert s == prefix + [s[|s| - 1]];
      WithKeyAppend(prefix, [s[|s| - 1]], key, k);
    }
  }

  /** Filtering on the negated key picks the same elements. */
  lemma {:induction false} WithKeyNegated<T>(s: seq<T>, key: T -> int, k: int)
    ensures WithKey(s, (x: T) => -key(x), -k) == WithKey(s, key, k)
  {
    if s != [] {
      WithKeyNegated(s[1..], key, k);
    }
  }

  /**
   * `sortedByDescending` is stable: the elements of any one key come out
   * in the order they went in.
   */
  lemma SortByDescendingStable<T>(s: seq<T>, key: T -> int, k: int)
    ensures WithKey(SortByDescending(s, key), key, k) == WithKey(s, key, k)
  {
    var neg := (x: T) => -key(x);
    SortByStable(s, neg, -k);
    WithKeyNegated(SortBy(s, neg), key, k);
    WithKeyNegated(s, key, k);
  }
}

=== FILE: text.dfy ===
/**
 * The Kotlin standard-library string operations the app relies on
 * (`take`, `takeLast`, `startsWith`, `removePrefix`, `contains(ignoreCase)`,
 * `trim`, `isBlank`, `split`, decimal `toString`), written out over
 * `seq<char>`, with the facts about them that the rest of the model uses.
 */
module Text {

  // ---------------------------------------------------------------------
  // Prefixes and suffixes

  /** `s.take(n)`: the first `min(n, |s|)` elements. */
  function Take<T>(s: seq<T>, n: nat): (r: seq<T>)
    ensures |r| == if n < |s| then n else |s|
    ensures r <= s
  {
    if n < |s| then s[..n] else s
  }

  /** `s.takeLast(n)`: the last `min(n, |s|)` elements. */
  function TakeLast<T>(s: seq<T>, n: nat): (r: seq<T>)
    ensures |r| == if n < |s| then n else |s|
    ensures r == s[|s| - |r|..]
  {
    if n < |s| then s[|s| - n..] else s
  }

  predicate StartsWith(s: string, prefix: string) {
    prefix <= s
  }

  /** `s.removePrefix(prefix)`: `s` without `prefix` if it starts with it, else `s`. */
  function RemovePrefix(s: string, prefix: string): (r: string)
    ensures StartsWith(s, prefix) ==> prefix + r == s
    ensures !StartsWith(s, prefix) ==> r == s
  {
    if StartsWith(s, prefix) then s[|prefix|..] else s
  }

  // ---------------------------------------------------------------------
  // Case-insensitive search

  /** The ASCII lower-case of a character; other characters are kept. */
  function LowerAscii(c: char): char {
    if 'A' <= c <= 'Z' then (c as int + 32) as char else c
  }

  predicate SameIgnoringCase(a: string, b: string) {
    |a| == |b| && forall i :: 0 <= i < |a| ==> LowerAscii(a[i]) == LowerAscii(b[i])
  }

  /** `hay.contains(needle, ignoreCase = true)`. */
  predicate ContainsIgnoreCase(hay: string, needle: string)
    decreases |hay|
  {
    (|needle| <= |hay| && SameIgnoringCase(hay[..|needle|], needle))
    || (|hay| > 0 && ContainsIgnoreCase(hay[1..], needle))
  }

  // ---------------------------------------------------------------------
  // Whitespace

  /**
   * Kotlin's `Char.isWhitespace()`: Java's `isWhitespace` (the ASCII
   * controls TAB..CR and FS..US) or `isSpaceChar` (the Unicode space,
   * line and paragraph separators).
   */
  predicate IsWhitespace(c: char) {
    c == ' ' || ('\t' <= c <= '\r') || ('\U{1C}' <= c <= '\U{1F}')
    || c == '\U{A0}' || c == '\U{1680}' || ('\U{2000}' <= c <= '\U{200A}')
    || c == '\U{2028}' || c == '\U{2029}' || c == '\U{202F}' || c == '\U{205F}' || c == '\U{3000}'
  }

  /** `s.isBlank()`: every character is whitespace. */
  predicate IsBlank(s: string) {
    forall i :: 0 <= i < |s| ==> IsWhitespace(s[i])
  }

  /** `s.trimStart()`: the longest suffix of `s` not starting with whitespace. */
  function TrimStart(s: string): (r: string)
    ensures |r| <= |s| && r == s[|s| - |r|..]
    ensures r == [] || !IsWhitespace(r[0])
    ensures IsBlank(s[..|s| - |r|])
  {
    if s != [] && IsWhitespace(s[0]) then
      var r := TrimStart(s[1..]);
      var dropped := s[..|s| - |r|];
      assert dropped == [s[0]] + s[1..][..|s| - 1 - |r|];
      assert forall i :: 1 <= i < |dropped| ==> dropped[i] == s[1..][..|s| - 1 - |r|][i - 1];
      r
    else s
  }

  /** `s.trimEnd()`: the longest prefix of `s` not ending with whitespace. */
  function TrimEnd(s: string): (r: string)
    ensures |r| <= |s| && r == s[..|r|]
    ensures r == [] || !IsWhitespace(r[|r| - 1])
    ensures IsBlank(s[|r|..])
  {
    if s != [] && IsWhitespace(s[|s| - 1]) then
      var r := TrimEnd(s[..|s| - 1]);
      assert s[|r|..] == s[..|s| - 1][|r|..] + [s[|s| - 1]];
      r
    else s
  }

  /** `s.trim()`. */
  function Trim(s: string): string {
    TrimEnd(TrimStart(s))
  }

  /** Trimming leaves nothing exactly when the string is blank. */
  lemma TrimEmptyIffBlank(s: string)
    ensures Trim(s) == [] <==> IsBlank(s)
  {
    var t := TrimStart(s);
    if Trim(s) == [] {
      assert t[0..] == t;
      assert s == s[..|s| - |t|] + t;
    }
  }

  // ---------------------------------------------------------------------
  // Splitting on a single-character delimiter

  /**
   * `s.split(sep)` for a one-character delimiter: the maximal pieces
   * between occurrences of `sep`, empty pieces included.
   */
  function Split(s: string, sep: char): (parts: seq<string>)
    ensures |parts| >= 1
  {
    if s == [] then [[]]
    else if s[0] == sep then [[]] + Split(s[1..], sep)
    else
      var rest := Split(s[1..], sep);
      [[s[0]] + rest[0]] + rest[1..]
  }

  /** `parts.joinToString(sep)`. */
  function Join(parts: seq<string>, sep: char): string
    requires |parts| >= 1
  {
    if |parts| == 1 then parts[0] else parts[0] + [sep] + Join(parts[1..], sep)
  }

  /** Joining the pieces back with the delimiter gives the original string. */
  lemma {:induction false} JoinSplit(s: string, sep: char)
    ensures Join(Split(s, sep), sep) == s
  {
    if s == [] {
    } else if s[0] == sep {
      JoinSplit(s[1..], sep);
      assert s == [sep] + s[1..];
    } else {
      JoinSplit(s[1..], sep);
      var rest := Split(s[1..], sep);
      if |rest| == 1 {
        assert s == [s[0]] + rest[0];
      } else {
        assert rest[1..][1..] == rest[2..];
        assert Join(rest, sep) == rest[0] + [sep] + Join(rest[1..], sep);
        assert s == [s[0]] + s[1..];
      }
    }
  }

  /** No piece contains the delimiter. */
  lemma {:induction false} SplitPartsAvoidSep(s: string, sep: char)
    ensures forall k :: 0 <= k < |Split(s, sep)| ==> sep !in Split(s, sep)[k]
  {
    if s != [] {
      SplitPartsAvoidSep(s[1..], sep);
    }
  }

  /** A string without the delimiter is a single piece. */
  lemma {:induction false} SplitWithoutSep(s: string, sep: char)
    requires sep !in s
    ensures Split(s, sep) == [s]
  {
    if s != [] {
      SplitWithoutSep(s[1..], sep);
      assert s == [s[0]] + s[1..];
    }
  }

  /** Splitting around one delimiter splits each side independently. */
  lemma {:induction false} SplitAround(a: string, b: string, sep: char)
    ensures Split(a + [sep] + b, sep) == Split(a, sep) + Split(b, sep)
  {
    if a == [] {
      assert a + [sep] + b == [sep] + b;
      assert ([sep] + b)[1..] == b;
    } else {
      var s := a + [sep] + b;
      assert s[0] == a[0];
      assert s[1..] == a[1..] + [sep] + b;
      SplitAround(a[1..], b, sep);
      var x, y := Split(a[1..], sep), Split(b, sep);
      if a[0] != sep {
        assert Split(s, sep) == [[a[0]] + (x + y)[0]] + (x + y)[1..];
        assert Split(a, sep) == [[a[0]] + x[0]] + x[1..];
        ExtendFirstPiece(a[0], x, y);
      } else {
        assert Split(s, sep) == [[]] + (x + y);
        assert Split(a, sep) == [[]] + x;
      }
    }
  }

  /** Putting a character in front of the first piece commutes with appending more pieces. */
  lemma ExtendFirstPiece(c: char, x: seq<string>, y: seq<string>)
    requires |x| >= 1
    ensures [[c] + (x + y)[0]] + (x + y)[1..] == ([[c] + x[0]] + x[1..]) + y
  {
    assert (x + y)[0] == x[0];
    assert (x + y)[1..] == x[1..] + y;
  }

  /** Splitting around two delimiters splits each of the three sides independently. */
  lemma SplitAroundTwo(a: string, b: string, c: string, sep: char)
    ensures Split(a + [sep] + b + [sep] + c, sep) == Split(a, sep) + Split(b, sep) + Split(c, sep)
  {
    assert a + [sep] + b + [sep] + c == a + [sep] + (b + [sep] + c);
    SplitAround(a, b + [sep] + c, sep);
    SplitAround(b, c, sep);
  }

  /** A string is a single piece exactly when it does not contain the delimiter. */
  lemma SplitSingleIff(s: string, sep: char)
    ensures |Split(s, sep)| == 1 <==> sep !in s
  {
    if sep in s {
      var k :| 0 <= k < |s| && s[k] == sep;
      assert s == s[..k] + [sep] + s[k + 1..];
      SplitAround(s[..k], s[k + 1..], sep);
    } else {
      SplitWithoutSep(s, sep);
    }
  }

  // ---------------------------------------------------------------------
  // Decimal rendering of non-negative integers

  predicate IsDigit(c: char) {
    '0' <= c <= '9'
  }

  predicate AllDigits(s: string) {
    forall i :: 0 <= i < |s| ==> IsDigit(s[i])
  }

  function DigitChar(d: nat): char
    requires d < 10
  {
    ('0' as int + d) as char
  }

  function DigitValue(c: char): nat
    requires IsDigit(c)
  {
    c as int - '0' as int
  }

  /**
   * The decimal rendering of `n` that Kotlin string templates produce
   * for a non-negative `Int` or `Long`: digits only, no leading zero.
   */
  function NatToString(n: nat): (s: string)
    ensures |s| >= 1 && AllDigits(s)
    ensures s[0] != '0' || n == 0
    decreases n
  {
    if n < 10 then [DigitChar(n)] else NatToString(n / 10) + [DigitChar(n % 10)]
  }

  /** Reads a string of decimal digits back as a number. */
  function ParseNat(s: string): nat
    requires AllDigits(s)
  {
    if s == [] then 0 else ParseNat(s[..|s| - 1]) * 10 + DigitValue(s[|s| - 1])
  }

  /** Rendering then reading gives the number back. */
  lemma {:induction false} ParseNatToString(n: nat)
    ensures ParseNat(NatToString(n)) == n
    decreases n
  {
    var s := NatToString(n);
    if n >= 10 {
      ParseNatToString(n / 10);
      assert s[..|s| - 1] == NatToString(n / 10);
    }
  }

  /** Different numbers render differently. */
  lemma NatToStringInjective(m: nat, n: nat)
    requires NatToString(m) == NatToString(n)
    ensures m == n
  {
    ParseNatToString(m);
    ParseNatToString(n);
  }
}

=== FILE: transactions.dfy ===
/**
 * The transactions list (`generateRealTransactions` in the transactions
 * screen): rows of the bank and mutual-fund responses held by the view
 * model become numbered list items, newest first and at most fifteen, or
 * a fixed sample list when there are none.
 */
module Transactions {
  import opened Wrappers
  import opened Text
  import opened Sorting
  import opened ApiModels
  import ViewModel

  /** The categories the screen knows; the keyword rules yield only some of them. */
  datatype Category = Income | Bills | Investment | Food | Transport | Entertainment | Shopping | Expense

  /** Theme colours, by their names in the app's theme. */
  datatype Color =
    | SuccessGreen | ErrorRed | ElectricBlue | OrangeGlow | PurpleGlow
    | PinkGlow | NeonGreen | TextSecondary | WarningOrange

  datatype TransactionItem = TransactionItem(
    id: int,
    description: string,
    amount: string,
    date: string,
    category: Category,
    icon: string,
    color: Color,
    status: string)

  /** A list item before the id counter has numbered it. */
  datatype Draft = Draft(description: string, amount: string, date: string, category: Category, icon: string, color: Color) {
    function WithId(id: int): TransactionItem {
      TransactionItem(id, description, amount, date, category, icon, color, "Completed")
    }
  }

  // ---------------------------------------------------------------------
  // Reading one row

  /**
   * The first-match keyword rules, applied to the already truncated
   * description, ignoring case. They never yield Entertainment or
   * Shopping.
   */
  function Categorize(description: string): (c: Category)
    ensures c != Entertainment && c != Shopping
    ensures ContainsIgnoreCase(description, "salary") ==> c == Income
  {
    if ContainsIgnoreCase(description, "salary") then Income
    else if ContainsIgnoreCase(description, "rent") then Bills
    else if ContainsIgnoreCase(description, "sip") || ContainsIgnoreCase(description, "mutual") then Investment
    else if ContainsIgnoreCase(description, "grocery") || ContainsIgnoreCase(description, "food") then Food
    else if ContainsIgnoreCase(description, "fuel") || ContainsIgnoreCase(description, "petrol") then Transport
    else if ContainsIgnoreCase(description, "electricity") || ContainsIgnoreCase(description, "bill") then Bills
    else Expense
  }

  /**
   * The rules of `Categorize` as a table, in the order they are tried:
   * each rule's keywords and the category it gives.
   */
  const RULES: seq<(seq<string>, Category)> := [
    (["salary"], Income), (["rent"], Bills), (["sip", "mutual"], Investment),
    (["grocery", "food"], Food), (["fuel", "petrol"], Transport), (["electricity", "bill"], Bills)]

  /** Rule `j` fires: the description contains one of its keywords, ignoring case. */
  predicate RuleMatches(description: string, j: int)
    requires 0 <= j < |RULES|
  {
    exists k :: 0 <= k < |RULES[j].0| && ContainsIgnoreCase(description, RULES[j].0[k])
  }

  lemma RuleMatchesUnfolded(description: string)
    ensures RuleMatches(description, 0) <==> ContainsIgnoreCase(description, "salary")
    ensures RuleMatches(description, 1) <==> ContainsIgnoreCase(description, "rent")
    ensures RuleMatches(description, 2) <==>
      ContainsIgnoreCase(description, "sip") || ContainsIgnoreCase(description, "mutual")
    ensures RuleMatches(description, 3) <==>
      ContainsIgnoreCase(description, "grocery") || ContainsIgnoreCase(description, "food")
    ensures RuleMatches(description, 4) <==>
      ContainsIgnoreCase(description, "fuel") || ContainsIgnoreCase(description, "petrol")
    ensures RuleMatches(description, 5) <==>
      ContainsIgnoreCase(description, "electricity") || ContainsIgnoreCase(description, "bill")
  {
    OneKeyword(description, 0, "salary");
    OneKeyword(description, 1, "rent");
    TwoKeywords(description, 2, "sip", "mutual");
    TwoKeywords(description, 3, "grocery", "food");
    TwoKeywords(description, 4, "fuel", "petrol");
    TwoKeywords(description, 5, "electricity", "bill");
  }

  lemma OneKeyword(description: string, j: int, a: string)
    requires 0 <= j < |RULES| && RULES[j].0 == [a]
    ensures RuleMatches(description, j) <==> ContainsIgnoreCase(description, a)
  {
    if ContainsIgnoreCase(description, a) { assert RULES[j].0[0] == a; }
  }

  lemma TwoKeywords(description: string, j: int, a: string, b: string)
    requires 0 <= j < |RULES| && RULES[j].0 == [a, b]
    ensures RuleMatches(description, j) <==> ContainsIgnoreCase(description, a) || ContainsIgnoreCase(description, b)
  {
    if ContainsIgnoreCase(description, a) { assert RULES[j].0[0] == a; }
    if ContainsIgnoreCase(description, b) { assert RULES[j].0[1] == b; }
  }

  /** The first rule that fires decides the category, whatever later rules say. */
  lemma FirstMatchingRuleDecides(description: string, j: int)
    requires 0 <= j < |RULES| && RuleMatches(description, j)
    requires forall i :: 0 <= i < j ==> !RuleMatches(description, i)
    ensures Categorize(description) == RULES[j].1
  {
    RuleMatchesUnfolded(description);
    if j > 0 { assert !RuleMatches(description, 0); }
    if j > 1 { assert !RuleMatches(description, 1); }
    if j > 2 { assert !RuleMatches(description, 2); }
    if j > 3 { assert !RuleMatches(description, 3); }
    if j > 4 { assert !RuleMatches(description, 4); }
  }

  /** When no rule fires the category is Expense, and only then. */
  lemma ExpenseIffNoRuleMatches(description: string)
    ensures Categorize(description) == Expense <==> forall j :: 0 <= j < |RULES| ==> !RuleMatches(description, j)
  {
    RuleMatchesUnfolded(description);
    if Categorize(description) != Expense {
      if ContainsIgnoreCase(description, "salary") { assert RuleMatches(description, 0); }
      else if ContainsIgnoreCase(description, "rent") { assert RuleMatches(description, 1); }
      else if Categorize(description) == Investment { assert RuleMatches(description, 2); }
      else if Categorize(description) == Food { assert RuleMatches(description, 3); }
      else if Categorize(description) == Transport { assert RuleMatches(description, 4); }
      else { assert RuleMatches(description, 5); }
    }
  }

  const MF_ICON: string := "\U{1F4CA}"

  function IconFor(c: Category): string {
    match c
    case Income => "\U{1F4B0}"
    case Bills => "\U{1F3E0}"
    case Investment => "\U{1F4C8}"
    case Food => "\U{1F6D2}"
    case Transport => "\U{26FD}"
    case Entertainment => "\U{1F3AC}"
    case Shopping => "\U{1F4E6}"
    case Expense => "\U{1F4B3}"
  }

  /** Green for money in; for money out, the category's colour. */
  function BankColor(amount: int, c: Category): (color: Color)
    ensures color == SuccessGreen <==> amount >= 0
  {
    if amount >= 0 then SuccessGreen
    else match c
      case Bills => ErrorRed
      case Investment => ElectricBlue
      case Food => OrangeGlow
      case Transport => PurpleGlow
      case Entertainment => PinkGlow
      case Shopping => NeonGreen
      case _ => TextSecondary
  }

  /** `Int.MAX_VALUE`, where Kotlin's `Double.toInt()` saturates. */
  const INT_MAX: int := 0x7fff_ffff

  /** `toInt()` of a magnitude: values above `Int.MAX_VALUE` saturate to it. */
  function Saturate(n: nat): (r: nat)
    ensures r <= INT_MAX
    ensures r == n || (n > INT_MAX && r == INT_MAX)
  {
    if n <= INT_MAX then n else INT_MAX
  }

  /**
   * `"+₹<n>"` for a non-negative amount, `"-₹<n>"` for a negative one, the
   * magnitude passing through `toInt()`.
   */
  function FormatAmount(amount: int): string {
    if amount >= 0 then "+\U{20B9}" + NatToString(Saturate(amount))
    else "-\U{20B9}" + NatToString(Saturate(-amount))
  }

  /** The amount as shown: the amount itself, cut to plus or minus `Int.MAX_VALUE`. */
  function Clamp(amount: int): (r: int)
    ensures -INT_MAX <= r <= INT_MAX
    ensures -INT_MAX <= amount <= INT_MAX ==> r == amount
    ensures amount > INT_MAX ==> r == INT_MAX
    ensures amount < -INT_MAX ==> r == -INT_MAX
  {
    if amount > INT_MAX then INT_MAX else if amount < -INT_MAX then -INT_MAX else amount
  }

  /** The amount a formatted string shows, if it has that form. */
  function AmountShown(s: string): Option<int> {
    if |s| > 2 && s[1] == '\U{20B9}' && (s[0] == '+' || s[0] == '-') && AllDigits(s[2..])
    then var n: int := ParseNat(s[2..]); Some(if s[0] == '+' then n else -n)
    else None
  }

  /**
   * The formatted amount shows the amount, sign included, as long as it
   * fits in an `Int`; beyond that it shows `Int.MAX_VALUE` with the sign.
   */
  lemma FormatAmountRoundTrip(amount: int)
    ensures AmountShown(FormatAmount(amount)) == Some(Clamp(amount))
  {
    var s := FormatAmount(amount);
    if amount >= 0 {
      assert s[2..] == NatToString(Saturate(amount));
      ParseNatToString(Saturate(amount));
    } else {
      assert s[2..] == NatToString(Saturate(-amount));
      ParseNatToString(Saturate(-amount));
    }
  }

  /** `txn.getOrNull(i)?.toString()?.toDoubleOrNull() ?: 0.0`, whole part only. */
  function AmountOf(cell: Cell): int {
    match cell
    case JsonNull => 0
    case JsonValue(_, n) => n.GetOr(0)
  }

  /** `txn.getOrNull(0)?.toString()?.take(10) ?: "Recent"`. */
  function DateOf(cell: Cell): string {
    match cell
    case JsonNull => "Recent"
    case JsonValue(text, _) => Take(text, 10)
  }

  /**
   * The item a bank row of at least four cells becomes: its description is
   * categorised by the rules, which never give Entertainment or Shopping.
   */
  function BankDraft(txn: Row): (d: Draft)
    requires |txn| >= 4
    ensures d.category == Categorize(d.description)
    ensures d.category != Entertainment && d.category != Shopping
    ensures |d.description| <= 20
  {
    var description := BankDescription(txn[1]);
    var amount := AmountOf(txn[2]);
    var category := Categorize(description);
    Draft(description, FormatAmount(amount), DateOf(txn[0]), category, IconFor(category), BankColor(amount, category))
  }

  /** `txn.getOrNull(1)?.toString()?.take(20) ?: "Bank Transaction"`. */
  function BankDescription(cell: Cell): (r: string)
    ensures cell.JsonNull? ==> r == "Bank Transaction"
    ensures cell.JsonValue? ==> r <= cell.text && |r| == Min(|cell.text|, 20)
  {
    match cell
    case JsonNull => "Bank Transaction"
    case JsonValue(text, _) => Take(text, 20)
  }

  /**
   * A bank row's item in full: the second cell's first twenty characters
   * (or "Bank Transaction" for null) as its description, the category's
   * icon, the third cell's amount, the first cell's date, and green
   * exactly when money comes in.
   */
  lemma BankDraftFaithful(txn: Row)
    requires |txn| >= 4
    ensures var d := BankDraft(txn);
      && (txn[1].JsonNull? ==> d.description == "Bank Transaction")
      && (txn[1].JsonValue? ==> d.description <= txn[1].text && |d.description| == Min(|txn[1].text|, 20))
      && d.icon == IconFor(d.category)
      && AmountShown(d.amount) == Some(Clamp(AmountOf(txn[2])))
      && d.date == DateOf(txn[0])
      && (d.color == SuccessGreen <==> AmountOf(txn[2]) >= 0)
  {
    FormatAmountRoundTrip(AmountOf(txn[2]));
  }

  /** The item a mutual-fund row of at least three cells becomes: always an Investment headed "MF: ". */
  function MfDraft(schemeName: string, txn: Row): (d: Draft)
    requires |txn| >= 3
    ensures StartsWith(d.description, "MF: ") && d.category == Investment
  {
    Draft("MF: " + Take(schemeName, 20), FormatAmount(AmountOf(txn[2])), DateOf(txn[0]),
          Investment, MF_ICON, ElectricBlue)
  }

  /**
   * A scheme row's item in full: "MF: " and the scheme name's first twenty
   * characters, the chart icon in electric blue, the third cell's amount
   * and the first cell's date.
   */
  lemma MfDraftFaithful(schemeName: string, txn: Row)
    requires |txn| >= 3
    ensures var d := MfDraft(schemeName, txn);
      && d.description[4..] <= schemeName && |d.description| == 4 + Min(|schemeName|, 20)
      && d.icon == MF_ICON && d.color == ElectricBlue
      && AmountShown(d.amount) == Some(Clamp(AmountOf(txn[2])))
      && d.date == DateOf(txn[0])
  {
    FormatAmountRoundTrip(AmountOf(txn[2]));
  }

  function Min(a: int, b: int): int {
    if a < b then a else b
  }

  // ---------------------------------------------------------------------
  // The whole list, as the loops build it

  /**
   * What an inner loop keeps: the item `item` makes of each row of at
   * least `width` cells, in row order; shorter rows are skipped.
   */
  function KeepLong(rows: seq<Row>, width: nat, item: Row --> Draft): (ds: seq<Draft>)
    requires forall row: Row :: |row| >= width ==> item.requires(row)
    ensures |ds| <= |rows|
  {
    if rows == [] then []
    else
      var last := rows[|rows| - 1];
      KeepLong(rows[..|rows| - 1], width, item) + if |last| >= width then [item(last)] else []
  }

  /** The items of one bank's rows, in order, skipping rows shorter than four cells. */
  function BankRowDrafts(rows: seq<Row>): (ds: seq<Draft>)
    ensures |ds| <= |rows|
  {
    KeepLong(rows, 4, BankDraft)
  }

  /** The items of all banks: at most the first ten rows of each. */
  function BankDrafts(banks: seq<BankTransaction>): (ds: seq<Draft>)
    ensures |ds| <= 10 * |banks|
  {
    if banks == [] then []
    else BankDrafts(banks[..|banks| - 1]) + BankRowDrafts(Take(banks[|banks| - 1].txns, 10))
  }

  /** The item of a scheme's row, as a function of the row. */
  function MfItem(schemeName: string): (item: Row --> Draft)
    ensures forall row: Row :: |row| >= 3 ==> item.requires(row) && item(row) == MfDraft(schemeName, row)
  {
    (txn: Row) requires |txn| >= 3 => MfDraft(schemeName, txn)
  }

  /** The items of one scheme's rows, skipping rows shorter than three cells. */
  function MfRowDrafts(schemeName: string, rows: seq<Row>): (ds: seq<Draft>)
    ensures |ds| <= |rows|
  {
    KeepLong(rows, 3, MfItem(schemeName))
  }

  /** The items of all schemes: at most the first five rows of each. */
  function MfDrafts(funds: seq<MfTransaction>): (ds: seq<Draft>)
    ensures |ds| <= 5 * |funds|
  {
    if funds == [] then []
    else
      var last := funds[|funds| - 1];
      MfDrafts(funds[..|funds| - 1]) + MfRowDrafts(last.schemeName, Take(last.txns, 5))
  }

  // ---------------------------------------------------------------------
  // Which rows become items

  /** How many of the rows have at least `width` cells. */
  function LongRowCount(rows: seq<Row>, width: nat): (n: nat)
    ensures n <= |rows|
  {
    if rows == [] then 0
    else LongRowCount(rows[..|rows| - 1], width) + if |rows[|rows| - 1]| >= width then 1 else 0
  }

  /**
   * The kept rows make one item each, in row order: there are as many
   * items as long rows, and the row with `k` long rows before it makes
   * item `k`.
   */
  lemma {:induction false} KeepLongInOrder(rows: seq<Row>, width: nat, item: Row --> Draft)
    requires forall row: Row :: |row| >= width ==> item.requires(row)
    ensures |KeepLong(rows, width, item)| == LongRowCount(rows, width)
    ensures forall i :: 0 <= i < |rows| && |rows[i]| >= width ==>
      LongRowCount(rows[..i], width) < |KeepLong(rows, width, item)|
      && KeepLong(rows, width, item)[LongRowCount(rows[..i], width)] == item(rows[i])
  {
    if rows != [] {
      var init := rows[..|rows| - 1];
      KeepLongInOrder(init, width, item);
      forall i | 0 <= i < |rows| && |rows[i]| >= width
        ensures LongRowCount(rows[..i], width) < |KeepLong(rows, width, item)|
        ensures KeepLong(rows, width, item)[LongRowCount(rows[..i], width)] == item(rows[i])
      {
        if i < |rows| - 1 {
          assert rows[..i] == init[..i] && rows[i] == init[i];
        } else {
          assert rows[..i] == init;
        }
      }
    }
  }

  /** An item is kept exactly when it is the item of a long row. */
  lemma {:induction false} KeepLongMember(rows: seq<Row>, width: nat, item: Row --> Draft, d: Draft)
    requires forall row: Row :: |row| >= width ==> item.requires(row)
    ensures d in KeepLong(rows, width, item) <==>
      exists i :: 0 <= i < |rows| && |rows[i]| >= width && d == item(rows[i])
  {
    if rows != [] {
      var init := rows[..|rows| - 1];
      KeepLongMember(init, width, item, d);
      if d in KeepLong(init, width, item) {
        var i :| 0 <= i < |init| && |init[i]| >= width && d == item(init[i]);
        assert rows[i] == init[i];
      }
      if exists i :: 0 <= i < |rows| && |rows[i]| >= width && d == item(rows[i]) {
        var i :| 0 <= i < |rows| && |rows[i]| >= width && d == item(rows[i]);
        if i < |rows| - 1 {
          assert rows[i] == init[i];
        }
      }
    }
  }

  /** One more row extends what is kept by at most that row's item. */
  lemma KeepLongStep(added: seq<Draft>, rows: seq<Row>, width: nat, item: Row --> Draft, j: nat)
    requires forall row: Row :: |row| >= width ==> item.requires(row)
    requires j < |rows|
    ensures added + KeepLong(rows[..j + 1], width, item)
         == added + KeepLong(rows[..j], width, item) + if |rows[j]| >= width then [item(rows[j])] else []
  {
    assert rows[..j + 1][..j] == rows[..j];
    var more := if |rows[j]| >= width then [item(rows[j])] else [];
    assert added + (KeepLong(rows[..j], width, item) + more) == added + KeepLong(rows[..j], width, item) + more;
  }

  /**
   * Each row of at least four cells makes one item, in row order: there
   * are as many items as such rows, and the row with `k` such rows before
   * it makes item `k`.
   */
  lemma BankRowDraftsInOrder(rows: seq<Row>)
    ensures |BankRowDrafts(rows)| == LongRowCount(rows, 4)
    ensures forall i :: 0 <= i < |rows| && |rows[i]| >= 4 ==>
      LongRowCount(rows[..i], 4) < |BankRowDrafts(rows)|
      && BankRowDrafts(rows)[LongRowCount(rows[..i], 4)] == BankDraft(rows[i])
  {
    KeepLongInOrder(rows, 4, BankDraft);
  }

  /** An item comes from a bank's rows exactly when it is the item of one of its rows of at least four cells. */
  lemma BankRowDraftsMembers(rows: seq<Row>)
    ensures forall d :: d in BankRowDrafts(rows) <==>
      exists i :: 0 <= i < |rows| && |rows[i]| >= 4 && d == BankDraft(rows[i])
  {
    forall d
      ensures d in BankRowDrafts(rows) <==> exists i :: 0 <= i < |rows| && |rows[i]| >= 4 && d == BankDraft(rows[i])
    {
      BankRowDraftsMember(rows, d);
    }
  }

  lemma BankRowDraftsMember(rows: seq<Row>, d: Draft)
    ensures d in BankRowDrafts(rows) <==> exists i :: 0 <= i < |rows| && |rows[i]| >= 4 && d == BankDraft(rows[i])
  {
    KeepLongMember(rows, 4, BankDraft, d);
  }

  /**
   * An item is among all banks' items exactly when it is the item of a row
   * of at least four cells among the first ten rows of some bank.
   */
  lemma BankDraftsMembers(banks: seq<BankTransaction>)
    ensures forall d :: d in BankDrafts(banks) <==>
      exists b, i :: 0 <= b < |banks| && 0 <= i < |banks[b].txns| && i < 10
        && |banks[b].txns[i]| >= 4 && d == BankDraft(banks[b].txns[i])
  {
    forall d
      ensures d in BankDrafts(banks) <==>
        exists b, i :: 0 <= b < |banks| && 0 <= i < |banks[b].txns| && i < 10
          && |banks[b].txns[i]| >= 4 && d == BankDraft(banks[b].txns[i])
    {
      BankDraftsMember(banks, d);
    }
  }

  lemma BankDraftsMember(banks: seq<BankTransaction>, d: Draft)
    ensures d in BankDrafts(banks) <==>
      exists b, i :: 0 <= b < |banks| && 0 <= i < |banks[b].txns| && i < 10
        && |banks[b].txns[i]| >= 4 && d == BankDraft(banks[b].txns[i])
  {
    BankDraftsMemberByBank(banks, d);
    if d in BankDrafts(banks) {
      var b :| 0 <= b < |banks| && d in BankRowDrafts(Take(banks[b].txns, 10));
      FirstTenRowsMember(banks[b].txns, d);
    }
    if exists b, i :: 0 <= b < |banks| && 0 <= i < |banks[b].txns| && i < 10
        && |banks[b].txns[i]| >= 4 && d == BankDraft(banks[b].txns[i]) {
      var b, i :| 0 <= b < |banks| && 0 <= i < |banks[b].txns| && i < 10
        && |banks[b].txns[i]| >= 4 && d == BankDraft(banks[b].txns[i]);
      FirstTenRowsMember(banks[b].txns, d);
    }
  }

  lemma FirstTenRowsMember(rows: seq<Row>, d: Draft)
    ensures d in BankRowDrafts(Take(rows, 10)) <==>
      exists i :: 0 <= i < |rows| && i < 10 && |rows[i]| >= 4 && d == BankDraft(rows[i])
  {
    var first := Take(rows, 10);
    BankRowDraftsMember(first, d);
    assert forall i :: 0 <= i < |first| ==> first[i] == rows[i];
  }

  lemma {:induction false} BankDraftsMemberByBank(banks: seq<BankTransaction>, d: Draft)
    ensures d in BankDrafts(banks) <==> exists b :: 0 <= b < |banks| && d in BankRowDrafts(Take(banks[b].txns, 10))
  {
    if banks != [] {
      var init := banks[..|banks| - 1];
      BankDraftsMemberByBank(init, d);
      if d in BankDrafts(init) {
        var b :| 0 <= b < |init| && d in BankRowDrafts(Take(init[b].txns, 10));
        assert banks[b] == init[b];
      }
      if exists b :: 0 <= b < |banks| && d in BankRowDrafts(Take(banks[b].txns, 10)) {
        var b :| 0 <= b < |banks| && d in BankRowDrafts(Take(banks[b].txns, 10));
        if b < |banks| - 1 {
          assert banks[b] == init[b];
        }
      }
    }
  }

  /** Rows after a bank's tenth never make an item: changing them changes nothing. */
  lemma {:induction false} BankRowsAfterTenthIgnored(banks: seq<BankTransaction>, banks': seq<BankTransaction>)
    requires |banks| == |banks'|
    requires forall b :: 0 <= b < |banks| ==> Take(banks[b].txns, 10) == Take(banks'[b].txns, 10)
    ensures BankDrafts(banks) == BankDrafts(banks')
  {
    if banks != [] {
      BankRowsAfterTenthIgnored(banks[..|banks| - 1], banks'[..|banks| - 1]);
    }
  }

  /**
   * Each row of at least three cells makes one item, in row order: there
   * are as many items as such rows, and the row with `k` such rows before
   * it makes item `k`.
   */
  lemma MfRowDraftsInOrder(schemeName: string, rows: seq<Row>)
    ensures |MfRowDrafts(schemeName, rows)| == LongRowCount(rows, 3)
    ensures forall i :: 0 <= i < |rows| && |rows[i]| >= 3 ==>
      LongRowCount(rows[..i], 3) < |MfRowDrafts(schemeName, rows)|
      && MfRowDrafts(schemeName, rows)[LongRowCount(rows[..i], 3)] == MfDraft(schemeName, rows[i])
  {
    KeepLongInOrder(rows, 3, MfItem(schemeName));
  }

  /** An item comes from a scheme's rows exactly when it is the item of one of its rows of at least three cells. */
  lemma MfRowDraftsMembers(schemeName: string, rows: seq<Row>)
    ensures forall d :: d in MfRowDrafts(schemeName, rows) <==>
      exists i :: 0 <= i < |rows| && |rows[i]| >= 3 && d == MfDraft(schemeName, rows[i])
  {
    forall d
      ensures d in MfRowDrafts(schemeName, rows) <==>
        exists i :: 0 <= i < |rows| && |rows[i]| >= 3 && d == MfDraft(schemeName, rows[i])
    {
      MfRowDraftsMember(schemeName, rows, d);
    }
  }

  lemma MfRowDraftsMember(schemeName: string, rows: seq<Row>, d: Draft)
    ensures d in MfRowDrafts(schemeName, rows) <==>
      exists i :: 0 <= i < |rows| && |rows[i]| >= 3 && d == MfDraft(schemeName, rows[i])
  {
    KeepLongMember(rows, 3, MfItem(schemeName), d);
  }

  /**
   * An item is among all schemes' items exactly when it is the item of a
   * row of at least three cells among the first five rows of some scheme.
   */
  lemma MfDraftsMembers(funds: seq<MfTransaction>)
    ensures forall d :: d in MfDrafts(funds) <==>
      exists f, i :: 0 <= f < |funds| && 0 <= i < |funds[f].txns| && i < 5
        && |funds[f].txns[i]| >= 3 && d == MfDraft(funds[f].schemeName, funds[f].txns[i])
  {
    forall d
      ensures d in MfDrafts(funds) <==>
        exists f, i :: 0 <= f < |funds| && 0 <= i < |funds[f].txns| && i < 5
          && |funds[f].txns[i]| >= 3 && d == MfDraft(funds[f].schemeName, funds[f].txns[i])
    {
      MfDraftsMember(funds, d);
    }
  }

  lemma MfDraftsMember(funds: seq<MfTransaction>, d: Draft)
    ensures d in MfDrafts(funds) <==>
      exists f, i :: 0 <= f < |funds| && 0 <= i < |funds[f].txns| && i < 5
        && |funds[f].txns[i]| >= 3 && d == MfDraft(funds[f].schemeName, funds[f].txns[i])
  {
    MfDraftsMemberByFund(funds, d);
    if d in MfDrafts(funds) {
      var f :| 0 <= f < |funds| && d in MfRowDrafts(funds[f].schemeName, Take(funds[f].txns, 5));
      FirstFiveRowsMember(funds[f].schemeName, funds[f].txns, d);
    }
    if exists f, i :: 0 <= f < |funds| && 0 <= i < |funds[f].txns| && i < 5
        && |funds[f].txns[i]| >= 3 && d == MfDraft(funds[f].schemeName, funds[f].txns[i]) {
      var f, i :| 0 <= f < |funds| && 0 <= i < |funds[f].txns| && i < 5
        && |funds[f].txns[i]| >= 3 && d == MfDraft(funds[f].schemeName, funds[f].txns[i]);
      FirstFiveRowsMember(funds[f].schemeName, funds[f].txns, d);
    }
  }

  lemma FirstFiveRowsMember(schemeName: string, rows: seq<Row>, d: Draft)
    ensures d in MfRowDrafts(schemeName, Take(rows, 5)) <==>
      exists i :: 0 <= i < |rows| && i < 5 && |rows[i]| >= 3 && d == MfDraft(schemeName, rows[i])
  {
    var first := Take(rows, 5);
    MfRowDraftsMember(schemeName, first, d);
    assert forall i :: 0 <= i < |first| ==> first[i] == rows[i];
  }

  lemma {:induction false} MfDraftsMemberByFund(funds: seq<MfTransaction>, d: Draft)
    ensures d in MfDrafts(funds) <==>
      exists f :: 0 <= f < |funds| && d in MfRowDrafts(funds[f].schemeName, Take(funds[f].txns, 5))
  {
    if funds != [] {
      var init := funds[..|funds| - 1];
      MfDraftsMemberByFund(init, d);
      if d in MfDrafts(init) {
        var f :| 0 <= f < |init| && d in MfRowDrafts(init[f].schemeName, Take(init[f].txns, 5));
        assert funds[f] == init[f];
      }
      if exists f :: 0 <= f < |funds| && d in MfRowDrafts(funds[f].schemeName, Take(funds[f].txns, 5)) {
        var f :| 0 <= f < |funds| && d in MfRowDrafts(funds[f].schemeName, Take(funds[f].txns, 5));
        if f < |funds| - 1 {
          assert funds[f] == init[f];
        }
      }
    }
  }

  /** Rows after a scheme's fifth never make an item: changing them changes nothing. */
  lemma {:induction false} FundRowsAfterFifthIgnored(funds: seq<MfTransaction>, funds': seq<MfTransaction>)
    requires |funds| == |funds'|
    requires forall f :: 0 <= f < |funds| ==>
      funds[f].schemeName == funds'[f].schemeName && Take(funds[f].txns, 5) == Take(funds'[f].txns, 5)
    ensures MfDrafts(funds) == MfDrafts(funds')
  {
    if funds != [] {
      FundRowsAfterFifthIgnored(funds[..|funds| - 1], funds'[..|funds| - 1]);
    }
  }

  /** `bankTransactionsData?.bankTransactions`, or nothing. */
  function Banks(data: Option<BankTransactionsResponse>): seq<BankTransaction> {
    if data.Some? && data.value.bankTransactions.Some? then data.value.bankTransactions.value else []
  }

  /** `mfTransactionsData?.mfTransactions`, or nothing. */
  function Funds(data: Option<MfTransactionsResponse>): seq<MfTransaction> {
    if data.Some? && data.value.mfTransactions.Some? then data.value.mfTransactions.value else []
  }

  /** The items in the order they are added: bank rows, then fund rows. */
  function AllDrafts(bank: Option<BankTransactionsResponse>, mf: Option<MfTransactionsResponse>): seq<Draft> {
    BankDrafts(Banks(bank)) + MfDrafts(Funds(mf))
  }

  /** The id counter at work: ids 1, 2, 3, ... in the order the items are added. */
  function Numbered(ds: seq<Draft>): (items: seq<TransactionItem>)
    ensures |items| == |ds|
  {
    if ds == [] then [] else Numbered(ds[..|ds| - 1]) + [ds[|ds| - 1].WithId(|ds|)]
  }

  /** The i-th item added gets id i + 1 and is otherwise the i-th row's item. */
  lemma {:induction false} NumberedIds(ds: seq<Draft>)
    ensures forall i :: 0 <= i < |ds| ==> Numbered(ds)[i] == ds[i].WithId(i + 1)
  {
    if ds != [] {
      NumberedIds(ds[..|ds| - 1]);
    }
  }

  /** Every scheme row becomes an Investment item whose description starts with "MF: ". */
  lemma MfRowDraftsShape(schemeName: string, rows: seq<Row>)
    ensures forall i :: 0 <= i < |MfRowDrafts(schemeName, rows)| ==>
      StartsWith(MfRowDrafts(schemeName, rows)[i].description, "MF: ")
      && MfRowDrafts(schemeName, rows)[i].category == Investment
  {
    var ds := MfRowDrafts(schemeName, rows);
    forall i | 0 <= i < |ds|
      ensures StartsWith(ds[i].description, "MF: ") && ds[i].category == Investment
    {
      MfRowDraftsMember(schemeName, rows, ds[i]);
    }
  }

  lemma {:induction false} MfDraftsShape(funds: seq<MfTransaction>)
    ensures forall i :: 0 <= i < |MfDrafts(funds)| ==>
      StartsWith(MfDrafts(funds)[i].description, "MF: ") && MfDrafts(funds)[i].category == Investment
  {
    if funds != [] {
      var last := funds[|funds| - 1];
      MfDraftsShape(funds[..|funds| - 1]);
      MfRowDraftsShape(last.schemeName, Take(last.txns, 5));
    }
  }

  function ItemId(t: TransactionItem): int {
    t.id
  }

  const SAMPLE_TRANSACTIONS: seq<TransactionItem> := [
    TransactionItem(1, "Salary Credit", "+\U{20B9}3,00,000", "Dec 28", Income, "\U{1F4B0}", SuccessGreen, "Completed"),
    TransactionItem(2, "Rent Payment", "-\U{20B9}25,000", "Dec 27", Bills, "\U{1F3E0}", ErrorRed, "Completed"),
    TransactionItem(3, "SIP Investment", "-\U{20B9}30,000", "Dec 26", Investment, "\U{1F4C8}", ElectricBlue, "Completed"),
    TransactionItem(4, "Grocery Shopping", "-\U{20B9}3,500", "Dec 25", Food, "\U{1F6D2}", OrangeGlow, "Completed"),
    TransactionItem(5, "Fuel", "-\U{20B9}2,800", "Dec 24", Transport, "\U{26FD}", PurpleGlow, "Completed"),
    TransactionItem(6, "Movie Tickets", "-\U{20B9}800", "Dec 23", Entertainment, "\U{1F3AC}", PinkGlow, "Completed"),
    TransactionItem(7, "Online Shopping", "-\U{20B9}5,600", "Dec 22", Shopping, "\U{1F4E6}", NeonGreen, "Completed"),
    TransactionItem(8, "Restaurant", "-\U{20B9}1,200", "Dec 21", Food, "\U{1F37D}\U{FE0F}", ErrorRed, "Completed"),
    TransactionItem(9, "Electricity Bill", "-\U{20B9}1,800", "Dec 20", Bills, "\U{26A1}", WarningOrange, "Completed"),
    TransactionItem(10, "Freelance Payment", "+\U{20B9}15,000", "Dec 19", Income, "\U{1F4BB}", SuccessGreen, "Completed")]

  /**
   * The list the screen shows: the numbered items sorted by id, highest
   * first, and cut to fifteen, or the sample list when there are none.
   * Only the bank and fund data are read.
   */
  function RealTransactions(bank: Option<BankTransactionsResponse>, mf: Option<MfTransactionsResponse>): (r: seq<TransactionItem>)
    ensures AllDrafts(bank, mf) == [] <==> r == SAMPLE_TRANSACTIONS
    ensures var n := |AllDrafts(bank, mf)|;
      n > 0 ==> |r| == Min(n, 15) && forall i :: 0 <= i < |r| ==> r[i].id == n - i && r[i].status == "Completed"
  {
    var ds := AllDrafts(bank, mf);
    RealTransactionsShape(ds);
    SampleOnlyForNone(ds);
    ListShown(Numbered(ds))
  }

  /**
   * Real items never look like the sample list: theirs run from the
   * highest id down, the sample's from 1 up.
   */
  lemma SampleOnlyForNone(ds: seq<Draft>)
    ensures ListShown(Numbered(ds)) == SAMPLE_TRANSACTIONS <==> ds == []
  {
    if ds != [] {
      RealTransactionsShape(ds);
      var r := ListShown(Numbered(ds));
      if |r| >= 2 {
        assert r[0].id == |ds| && r[1].id == |ds| - 1;
      }
      NotTheSample(r);
    }
  }

  /** A list whose first id is above its second is not the sample list, whose ids go up. */
  lemma NotTheSample(r: seq<TransactionItem>)
    requires |r| >= 2 ==> r[0].id > r[1].id
    ensures r != SAMPLE_TRANSACTIONS
  {
    var sample := SAMPLE_TRANSACTIONS;
    assert |sample| == 10 && sample[0].id == 1 && sample[1].id == 2;
  }

  /** The final step: sorted by id, highest first, cut to fifteen, or the sample list for none. */
  function ListShown(items: seq<TransactionItem>): seq<TransactionItem> {
    if items != [] then Take(SortByDescending(items, ItemId), 15) else SAMPLE_TRANSACTIONS
  }

  /**
   * With no usable rows the sample list is shown. Otherwise the list holds
   * the last fifteen items added, newest first, each carrying the id of
   * its position in the order of adding.
   */
  lemma RealTransactionsShape(ds: seq<Draft>)
    ensures ds == [] ==> ListShown(Numbered(ds)) == SAMPLE_TRANSACTIONS
    ensures var r := ListShown(Numbered(ds));
      ds != [] ==>
        |r| == (if |ds| < 15 then |ds| else 15)
        && forall i :: 0 <= i < |r| ==> r[i] == ds[|ds| - 1 - i].WithId(|ds| - i)
  {
    var all := Numbered(ds);
    if ds != [] {
      NumberedIds(ds);
      forall i, j | 0 <= i < j < |all|
        ensures ItemId(all[i]) < ItemId(all[j])
      {
      }
      SortDescendingOfIncreasing(all, ItemId);
      NewestFirst(ds);
    }
  }

  /** The first fifteen of the numbered items, reversed, are the last fifteen added, newest first. */
  lemma NewestFirst(ds: seq<Draft>)
    ensures var r := Take(Reverse(Numbered(ds)), 15);
      forall i :: 0 <= i < |r| ==> r[i] == ds[|ds| - 1 - i].WithId(|ds| - i)
  {
    var all := Numbered(ds);
    var rev := Reverse(all);
    var r := Take(rev, 15);
    NumberedIds(ds);
    forall i | 0 <= i < |r|
      ensures r[i] == ds[|ds| - 1 - i].WithId(|ds| - i)
    {
      assert r[i] == rev[i];
      assert rev[i] == all[|all| - 1 - i];
    }
  }

  /** When fifteen or more items come after `earlier`, none of `earlier` is shown. */
  lemma LaterItemsCrowdOut(earlier: seq<Draft>, later: seq<Draft>)
    requires |later| >= 15
    ensures var r := ListShown(Numbered(earlier + later));
      forall i :: 0 <= i < |r| ==> r[i] == later[|later| - 1 - i].WithId(|earlier| + |later| - i)
  {
    var ds := earlier + later;
    RealTransactionsShape(ds);
    var r := ListShown(Numbered(ds));
    forall i | 0 <= i < |r|
      ensures r[i] == later[|later| - 1 - i].WithId(|earlier| + |later| - i)
    {
      assert ds[|ds| - 1 - i] == later[|later| - 1 - i];
    }
  }

  /**
   * Fund rows are added after bank rows, so fifteen or more fund rows push
   * every bank row off the list.
   */
  lemma FundRowsCrowdOutBankRows(bank: Option<BankTransactionsResponse>, mf: Option<MfTransactionsResponse>)
    requires |MfDrafts(Funds(mf))| >= 15
    ensures forall t :: t in RealTransactions(bank, mf) ==> StartsWith(t.description, "MF: ") && t.category == Investment
  {
    var earlier := BankDrafts(Banks(bank));
    var funds := MfDrafts(Funds(mf));
    MfDraftsShape(Funds(mf));
    LaterItemsCrowdOut(earlier, funds);
    var r := RealTransactions(bank, mf);
    assert r == ListShown(Numbered(earlier + funds));
    forall t | t in r
      ensures StartsWith(t.description, "MF: ") && t.category == Investment
    {
      var i :| 0 <= i < |r| && r[i] == t;
      assert t == funds[|funds| - 1 - i].WithId(|earlier| + |funds| - i);
    }
  }

  /** The Entertainment and Shopping icons and colours are never chosen for a real row. */
  lemma RealRowsNeverEntertainmentOrShopping(bank: Option<BankTransactionsResponse>, mf: Option<MfTransactionsResponse>)
    ensures forall i :: 0 <= i < |AllDrafts(bank, mf)| ==>
      AllDrafts(bank, mf)[i].category != Entertainment && AllDrafts(bank, mf)[i].category != Shopping
  {
    BankRowsNeverEntertainmentOrShopping(Banks(bank));
    MfDraftsShape(Funds(mf));
  }

  lemma {:induction false} BankRowsNeverEntertainmentOrShopping(banks: seq<BankTransaction>)
    ensures forall i :: 0 <= i < |BankDrafts(banks)| ==>
      BankDrafts(banks)[i].category != Entertainment && BankDrafts(banks)[i].category != Shopping
  {
    if banks != [] {
      BankRowsNeverEntertainmentOrShopping(banks[..|banks| - 1]);
      BankRowDraftsCategories(Take(banks[|banks| - 1].txns, 10));
    }
  }

  lemma BankRowDraftsCategories(rows: seq<Row>)
    ensures forall i :: 0 <= i < |BankRowDrafts(rows)| ==>
      BankRowDrafts(rows)[i].category != Entertainment && BankRowDrafts(rows)[i].category != Shopping
  {
    var ds := BankRowDrafts(rows);
    forall i | 0 <= i < |ds|
      ensures ds[i].category != Entertainment && ds[i].category != Shopping
    {
      BankRowDraftsMember(rows, ds[i]);
    }
  }

  // ---------------------------------------------------------------------
  // The loops themselves

  /**
   * `generateRealTransactions`: walks the banks, then the schemes, adding
   * an item with the next id for each row long enough, then sorts and cuts
   * the list. The result is the list `RealTransactions` describes; the
   * stock data and the screen's filter play no part.
   */
  method GenerateRealTransactions(vm: ViewModel.McpViewModel) returns (result: seq<TransactionItem>)
    ensures result == RealTransactions(vm.bankTransactionsData, vm.mfTransactionsData)
  {
    var banks := Banks(vm.bankTransactionsData);
    var funds := Funds(vm.mfTransactionsData);
    var realTransactions, idCounter := AddBanks(banks);
    realTransactions, idCounter := AddFunds(BankDrafts(banks), realTransactions, idCounter, funds);
    if realTransactions != [] {
      result := Take(SortByDescending(realTransactions, ItemId), 15);
    } else {
      result := SAMPLE_TRANSACTIONS;
    }
  }

  /** The loop over the banks, starting the id counter at 1. */
  method AddBanks(banks: seq<BankTransaction>) returns (items: seq<TransactionItem>, idCounter: int)
    ensures items == Numbered(BankDrafts(banks)) && idCounter == |items| + 1
  {
    items := [];
    idCounter := 1;
    var b := 0;
    while b < |banks|
      invariant 0 <= b <= |banks|
      invariant items == Numbered(BankDrafts(banks[..b]))
      invariant idCounter == |items| + 1
    {
      BankDraftsStep(banks, b);
      items, idCounter := AddBankRows(BankDrafts(banks[..b]), items, idCounter, Take(banks[b].txns, 10));
      b := b + 1;
    }
    assert banks[..b] == banks;
  }

  /** The loop over the schemes, continuing after the items in `added`. */
  method AddFunds(ghost added: seq<Draft>, items: seq<TransactionItem>, idCounter: int, funds: seq<MfTransaction>)
    returns (items': seq<TransactionItem>, idCounter': int)
    requires items == Numbered(added) && idCounter == |items| + 1
    ensures items' == Numbered(added + MfDrafts(funds)) && idCounter' == |items'| + 1
  {
    items', idCounter' := items, idCounter;
    assert added + MfDrafts(funds[..0]) == added;
    var f := 0;
    while f < |funds|
      invariant 0 <= f <= |funds|
      invariant items' == Numbered(added + MfDrafts(funds[..f]))
      invariant idCounter' == |items'| + 1
    {
      MfDraftsStep(added, funds, f);
      items', idCounter' := AddFundRows(added + MfDrafts(funds[..f]), items', idCounter', funds[f].schemeName, Take(funds[f].txns, 5));
      f := f + 1;
    }
    assert funds[..f] == funds;
  }

  /** The inner loop over one bank's rows: `added` are the items numbered so far. */
  method AddBankRows(ghost added: seq<Draft>, items: seq<TransactionItem>, idCounter: int, rows: seq<Row>)
    returns (items': seq<TransactionItem>, idCounter': int)
    requires items == Numbered(added) && idCounter == |items| + 1
    ensures items' == Numbered(added + BankRowDrafts(rows)) && idCounter' == |items'| + 1
  {
    items', idCounter' := items, idCounter;
    ghost var ds := added;
    assert added + BankRowDrafts(rows[..0]) == added;
    var j := 0;
    while j < |rows|
      invariant 0 <= j <= |rows|
      invariant ds == added + BankRowDrafts(rows[..j])
      invariant items' == Numbered(ds) && idCounter' == |ds| + 1
    {
      var txn := rows[j];
      BankRowDraftsStep(added, rows, j);
      if |txn| >= 4 {
        NumberedAppend(ds, BankDraft(txn));
        ds := ds + [BankDraft(txn)];
        items' := items' + [BankDraft(txn).WithId(idCounter')];
        idCounter' := idCounter' + 1;
      }
      j := j + 1;
    }
    assert rows[..j] == rows;
  }

  /** The inner loop over one scheme's rows. */
  method AddFundRows(ghost added: seq<Draft>, items: seq<TransactionItem>, idCounter: int, schemeName: string, rows: seq<Row>)
    returns (items': seq<TransactionItem>, idCounter': int)
    requires items == Numbered(added) && idCounter == |items| + 1
    ensures items' == Numbered(added + MfRowDrafts(schemeName, rows)) && idCounter' == |items'| + 1
  {
    items', idCounter' := items, idCounter;
    ghost var ds := added;
    assert added + MfRowDrafts(schemeName, rows[..0]) == added;
    var j := 0;
    while j < |rows|
      invariant 0 <= j <= |rows|
      invariant ds == added + MfRowDrafts(schemeName, rows[..j])
      invariant items' == Numbered(ds) && idCounter' == |ds| + 1
    {
      var txn := rows[j];
      MfRowDraftsStep(added, schemeName, rows, j);
      if |txn| >= 3 {
        NumberedAppend(ds, MfDraft(schemeName, txn));
        ds := ds + [MfDraft(schemeName, txn)];
        items' := items' + [MfDraft(schemeName, txn).WithId(idCounter')];
        idCounter' := idCounter' + 1;
      }
      j := j + 1;
    }
    assert rows[..j] == rows;
  }

  /** One more bank row extends the items after `added` by at most that row's item. */
  lemma BankRowDraftsStep(added: seq<Draft>, rows: seq<Row>, j: nat)
    requires j < |rows|
    ensures added + BankRowDrafts(rows[..j + 1])
         == added + BankRowDrafts(rows[..j]) + if |rows[j]| >= 4 then [BankDraft(rows[j])] else []
  {
    KeepLongStep(added, rows, 4, BankDraft, j);
  }

  /** One more scheme row extends the items after `added` by at most that row's item. */
  lemma MfRowDraftsStep(added: seq<Draft>, schemeName: string, rows: seq<Row>, j: nat)
    requires j < |rows|
    ensures added + MfRowDrafts(schemeName, rows[..j + 1])
         == added + MfRowDrafts(schemeName, rows[..j]) + if |rows[j]| >= 3 then [MfDraft(schemeName, rows[j])] else []
  {
    KeepLongStep(added, rows, 3, MfItem(schemeName), j);
  }

  lemma BankDraftsStep(banks: seq<BankTransaction>, b: nat)
    requires b < |banks|
    ensures BankDrafts(banks[..b + 1]) == BankDrafts(banks[..b]) + BankRowDrafts(Take(banks[b].txns, 10))
  {
    assert banks[..b + 1][..b] == banks[..b];
  }

  lemma MfDraftsStep(added: seq<Draft>, funds: seq<MfTransaction>, f: nat)
    requires f < |funds|
    ensures added + MfDrafts(funds[..f + 1])
         == added + MfDrafts(funds[..f]) + MfRowDrafts(funds[f].schemeName, Take(funds[f].txns, 5))
  {
    assert funds[..f + 1][..f] == funds[..f];
    var more := MfRowDrafts(funds[f].schemeName, Take(funds[f].txns, 5));
    assert added + (MfDrafts(funds[..f]) + more) == added + MfDrafts(funds[..f]) + more;
  }

  /** Adding one item with the next id extends the numbered list. */
  lemma NumberedAppend(ds: seq<Draft>, d: Draft)
    ensures Numbered(ds + [d]) == Numbered(ds) + [d.WithId(|ds| + 1)]
  {
    assert (ds + [d])[..|ds|] == ds;
  }
}

=== FILE: view_model.dfy ===
/**
 * `McpViewModel`: the observable screen state and the transitions that
 * update it. Each coroutine launched by a method is taken as one atomic
 * step, so a method receives the answers its repository calls would get
 * (network exchanges and decoders) and leaves the state the coroutine
 * leaves when it completes. The realtime-database callbacks are methods
 * that receive the snapshot they are called with.
 */
module ViewModel {
  import opened Wrappers
  import opened Http
  import opened ApiModels
  import opened McpApi
  import opened Gateway
  import opened ChatModels

  /** The sign-in dropdown's numbers; "2222222222" appears twice. */
  const ALLOWED_PHONE_NUMBERS: seq<string> := [
    "1414141414", "2222222222", "3333333333", "4444444444", "5555555555",
    "6666666666", "7777777777", "8888888888", "9999999999", "1010101010",
    "1212121212", "1313131313", "2020202020", "1515151515", "2121212121",
    "1616161616", "1717171717", "1818181818", "1919191919", "2525252525",
    "2222222222", "2323232323", "2424242424"]

  const API_ENDPOINTS: seq<string> := [
    "Fetch Bank Transactions",
    "Fetch Net Worth",
    "Fetch EPF Details",
    "Fetch Credit Report",
    "Fetch MF Transactions",
    "Fetch Stock Transactions"]

  const UNKNOWN_ENDPOINT: string := "Unknown endpoint"

  /** The tool `executeApiCall` runs for an endpoint label, if it names one. */
  function EndpointTool(endpoint: string): Option<Tool> {
    if endpoint == "Fetch Bank Transactions" then Some(BankTransactions)
    else if endpoint == "Fetch Net Worth" then Some(NetWorth)
    else if endpoint == "Fetch EPF Details" then Some(EpfDetails)
    else if endpoint == "Fetch Credit Report" then Some(CreditReport)
    else if endpoint == "Fetch MF Transactions" then Some(MfTransactions)
    else if endpoint == "Fetch Stock Transactions" then Some(StockTransactions)
    else None
  }

  /**
   * The endpoint labels are exactly the strings `executeApiCall`
   * recognises, and they run six different tools.
   */
  lemma EndpointsAreTheSixTools(endpoint: string)
    ensures EndpointTool(endpoint).Some? <==> endpoint in API_ENDPOINTS
    ensures forall i, j :: 0 <= i < j < |API_ENDPOINTS| ==>
      EndpointTool(API_ENDPOINTS[i]) != EndpointTool(API_ENDPOINTS[j])
  {
  }

  /** The result `executeApiCall` handles: a raw fetch, or "Unknown endpoint". */
  function ExecuteResult(endpoint: string, ex: Exchange<JsonRpcResponse>): (r: Result<string>)
    ensures EndpointTool(endpoint).None? ==> r == Fail(UNKNOWN_ENDPOINT)
    ensures EndpointTool(endpoint).Some? ==> r == FetchRaw(EndpointTool(endpoint).value, ex)
  {
    match EndpointTool(endpoint)
    case None => Fail(UNKNOWN_ENDPOINT)
    case Some(t) => FetchRaw(t, ex)
  }

  /** The error an `onFailure` handler shows: the message, or the handler's fallback when it is null. */
  function ErrorAfter<T>(r: Result<T>, fallback: string): Option<string> {
    if r.Success? then None else Some(r.MessageOr(fallback))
  }

  /**
   * A data field after a parsed fetch: replaced wholesale on success, by
   * `null` when the decoder gave `null`, and kept on failure.
   */
  function Replace<T>(previous: Option<T>, r: Result<Option<T>>): Option<T> {
    if r.Success? then r.value else previous
  }

  /** `UserChats(userId = userId, chats = emptyMap())`. */
  function EmptyChats(userId: string): UserChats {
    UserChats(userId, [], "")
  }

  /** What a user-chats snapshot holds: no node, or a node whose `getValue` gives a record or null. */
  datatype UserSnapshot = Missing | Present(value: Option<UserChats>)

  /** The `userChats` a snapshot leads to: the mapped record, else empty chats for the user. */
  function ChatsFromSnapshot(userId: string, snapshot: UserSnapshot): (u: UserChats)
    ensures snapshot.Present? && snapshot.value.Some? ==> u == snapshot.value.value
    ensures !(snapshot.Present? && snapshot.value.Some?) ==> u.userId == userId && u.chats == []
  {
    match snapshot
    case Missing => EmptyChats(userId)
    case Present(v) => v.GetOr(EmptyChats(userId))
  }

  /** `ChatSession(sessionId = sessionId, messages = messagesMap ?: emptyMap())`. */
  function DeliveredSession(sessionId: string, messages: Option<seq<(string, ChatMessage)>>): ChatSession {
    ChatSession(sessionId := sessionId, messages := messages.GetOr([]))
  }

  /** Every observable field of the view model at one moment. */
  datatype UiState = UiState(
    isLoggedIn: bool,
    isLoading: bool,
    errorMessage: Option<string>,
    responseData: Option<string>,
    selectedPhoneNumber: string,
    selectedEndpoint: string,
    netWorthData: Option<NetWorthResponse>,
    bankTransactionsData: Option<BankTransactionsResponse>,
    epfDetailsData: Option<EpfDetailsResponse>,
    creditReportData: Option<CreditReportResponse>,
    mfTransactionsData: Option<MfTransactionsResponse>,
    stockTransactionsData: Option<StockTransactionsResponse>,
    isDataLoading: bool,
    userChats: Option<UserChats>,
    selectedChatSession: Option<ChatSession>)

  /** The state of a fresh view model, given whether the store holds a phone number. */
  function InitialState(loggedIn: bool): UiState {
    UiState(loggedIn, false, None, None, ALLOWED_PHONE_NUMBERS[0], API_ENDPOINTS[0],
            None, None, None, None, None, None, false, None, None)
  }

  class McpViewModel {
    const repository: McpRepository

    var isLoggedIn: bool
    var isLoading: bool
    var errorMessage: Option<string>
    var responseData: Option<string>
    var selectedPhoneNumber: string
    var selectedEndpoint: string
    var netWorthData: Option<NetWorthResponse>
    var bankTransactionsData: Option<BankTransactionsResponse>
    var epfDetailsData: Option<EpfDetailsResponse>
    var creditReportData: Option<CreditReportResponse>
    var mfTransactionsData: Option<MfTransactionsResponse>
    var stockTransactionsData: Option<StockTransactionsResponse>
    var isDataLoading: bool
    var userChats: Option<UserChats>
    var selectedChatSession: Option<ChatSession>

    function State(): UiState
      reads this
    {
      UiState(isLoggedIn, isLoading, errorMessage, responseData, selectedPhoneNumber, selectedEndpoint,
              netWorthData, bankTransactionsData, epfDetailsData, creditReportData,
              mfTransactionsData, stockTransactionsData, isDataLoading, userChats, selectedChatSession)
    }

    /** The logged-in flag agrees with the store. */
    ghost predicate Valid()
      reads this, repository
    {
      isLoggedIn == repository.IsLoggedIn()
    }

    constructor (repository: McpRepository)
      ensures this.repository == repository
      ensures State() == InitialState(repository.IsLoggedIn())
      ensures State().selectedPhoneNumber == "1414141414"
      ensures State().selectedEndpoint == "Fetch Bank Transactions"
      ensures Valid()
    {
      this.repository := repository;
      isLoggedIn := repository.IsLoggedIn();
      isLoading := false;
      errorMessage := None;
      responseData := None;
      selectedPhoneNumber := ALLOWED_PHONE_NUMBERS[0];
      selectedEndpoint := API_ENDPOINTS[0];
      netWorthData := None;
      bankTransactionsData := None;
      epfDetailsData := None;
      creditReportData := None;
      mfTransactionsData := None;
      stockTransactionsData := None;
      isDataLoading := false;
      userChats := None;
      selectedChatSession := None;
    }

    function GetStoredPhoneNumber(): Option<string>
      reads repository
    {
      repository.GetStoredPhoneNumber()
    }

    method UpdateSelectedPhoneNumber(phoneNumber: string)
      requires Valid()
      modifies this
      ensures State() == old(State()).(selectedPhoneNumber := phoneNumber)
      ensures Valid()
    {
      selectedPhoneNumber := phoneNumber;
    }

    method UpdateSelectedEndpoint(endpoint: string)
      requires Valid()
      modifies this
      ensures State() == old(State()).(selectedEndpoint := endpoint)
      ensures Valid()
    {
      selectedEndpoint := endpoint;
    }

    method ClearError()
      requires Valid()
      modifies this
      ensures State() == old(State()).(errorMessage := None)
      ensures Valid()
    {
      errorMessage := None;
    }

    method ClearResponse()
      requires Valid()
      modifies this
      ensures State() == old(State()).(responseData := None)
      ensures Valid()
    {
      responseData := None;
    }

    /**
     * `signIn`: authenticates the selected number. Success logs in; failure
     * shows the error and leaves the logged-in flag and the store alone.
     */
    method SignIn(bootstrap: Exchange<string>, login: Exchange<string>)
      requires Valid()
      modifies this, repository
      ensures AuthOutcome(bootstrap, login).Success? ==>
        State() == old(State()).(isLoggedIn := true, isLoading := false, errorMessage := None)
        && repository.prefs == old(repository.prefs)[KEY_PHONE_NUMBER := old(selectedPhoneNumber)][KEY_SESSION_ID := SESSION_ID]
        && repository.GetStoredPhoneNumber() == Some(old(selectedPhoneNumber))
      ensures AuthOutcome(bootstrap, login).Failure? ==>
        State() == old(State()).(isLoading := false,
                                 errorMessage := ErrorAfter(AuthOutcome(bootstrap, login), "Authentication failed"))
        && repository.prefs == old(repository.prefs)
      ensures Valid()
    {
      isLoading := true;
      errorMessage := None;
      var _, r := repository.Authenticate(selectedPhoneNumber, bootstrap, login);
      if r.Success? {
        isLoggedIn := true;
        isLoading := false;
      } else {
        errorMessage := Some(r.MessageOr("Authentication failed"));
        isLoading := false;
      }
    }

    /** `logout`: clears the store, the response, the error and the chat data. */
    method Logout()
      requires Valid()
      modifies this, repository
      ensures State() == old(State()).(isLoggedIn := false, responseData := None, errorMessage := None,
                                       userChats := None, selectedChatSession := None)
      ensures repository.prefs == old(repository.prefs) - {KEY_PHONE_NUMBER, KEY_SESSION_ID}
      ensures GetStoredPhoneNumber() == None
      ensures Valid()
    {
      repository.Logout();
      isLoggedIn := false;
      responseData := None;
      errorMessage := None;
      userChats := None;
      selectedChatSession := None;
    }

    /** `executeApiCall`: runs the raw fetch the selected endpoint names. */
    method ExecuteApiCall(ex: Exchange<JsonRpcResponse>)
      requires Valid()
      modifies this
      ensures var r := ExecuteResult(old(selectedEndpoint), ex);
        State() == old(State()).(isLoading := false,
                                 errorMessage := ErrorAfter(r, "API call failed"),
                                 responseData := if r.Success? then Some(r.value) else None)
      ensures Valid()
    {
      isLoading := true;
      errorMessage := None;
      responseData := None;
      var r := ExecuteResult(selectedEndpoint, ex);
      if r.Success? {
        responseData := Some(r.value);
        isLoading := false;
      } else {
        errorMessage := Some(r.MessageOr("API call failed"));
        isLoading := false;
      }
    }

    method FetchNetWorth(ex: Exchange<JsonRpcResponse>, decode: string -> Decoded<NetWorthResponse>)
      requires Valid()
      modifies this
      ensures var r := FetchParsed(NetWorth, ex, decode);
        State() == old(State()).(isDataLoading := false,
                                 errorMessage := ErrorAfter(r, FetchLabel(NetWorth)),
                                 netWorthData := Replace(old(netWorthData), r))
      ensures Valid()
    {
      isDataLoading := true;
      errorMessage := None;
      var r := FetchParsed(NetWorth, ex, decode);
      if r.Success? {
        netWorthData := r.value;
        isDataLoading := false;
      } else {
        errorMessage := Some(r.MessageOr(FetchLabel(NetWorth)));
        isDataLoading := false;
      }
    }

    method FetchBankTransactions(ex: Exchange<JsonRpcResponse>, decode: string -> Decoded<BankTransactionsResponse>)
      requires Valid()
      modifies this
      ensures var r := FetchParsed(BankTransactions, ex, decode);
        State() == old(State()).(isDataLoading := false,
                                 errorMessage := ErrorAfter(r, FetchLabel(BankTransactions)),
                                 bankTransactionsData := Replace(old(bankTransactionsData), r))
      ensures Valid()
    {
      isDataLoading := true;
      errorMessage := None;
      var r := FetchParsed(BankTransactions, ex, decode);
      if r.Success? {
        bankTransactionsData := r.value;
        isDataLoading := false;
      } else {
        errorMessage := Some(r.MessageOr(FetchLabel(BankTransactions)));
        isDataLoading := false;
      }
    }

    method FetchEpfDetails(ex: Exchange<JsonRpcResponse>, decode: string -> Decoded<EpfDetailsResponse>)
      requires Valid()
      modifies this
      ensures var r := FetchParsed(EpfDetails, ex, decode);
        State() == old(State()).(isDataLoading := false,
                                 errorMessage := ErrorAfter(r, FetchLabel(EpfDetails)),
                                 epfDetailsData := Replace(old(epfDetailsData), r))
      ensures Valid()
    {
      isDataLoading := true;
      errorMessage := None;
      var r := FetchParsed(EpfDetails, ex, decode);
      if r.Success? {
        epfDetailsData := r.value;
        isDataLoading := false;
      } else {
        errorMessage := Some(r.MessageOr(FetchLabel(EpfDetails)));
        isDataLoading := false;
      }
    }

    method FetchCreditReport(ex: Exchange<JsonRpcResponse>, decode: string -> Decoded<CreditReportResponse>)
      requires Valid()
      modifies this
      ensures var r := FetchParsed(CreditReport, ex, decode);
        State() == old(State()).(isDataLoading := false,
                                 errorMessage := ErrorAfter(r, FetchLabel(CreditReport)),
                                 creditReportData := Replace(old(creditReportData), r))
      ensures Valid()
    {
      isDataLoading := true;
      errorMessage := None;
      var r := FetchParsed(CreditReport, ex, decode);
      if r.Success? {
        creditReportData := r.value;
        isDataLoading := false;
      } else {
        errorMessage := Some(r.MessageOr(FetchLabel(CreditReport)));
        isDataLoading := false;
      }
    }

    method FetchMfTransactions(ex: Exchange<JsonRpcResponse>, decode: string -> Decoded<MfTransactionsResponse>)
      requires Valid()
      modifies this
      ensures var r := FetchParsed(MfTransactions, ex, decode);
        State() == old(State()).(isDataLoading := false,
                                 errorMessage := ErrorAfter(r, FetchLabel(MfTransactions)),
                                 mfTransactionsData := Replace(old(mfTransactionsData), r))
      ensures Valid()
    {
      isDataLoading := true;
      errorMessage := None;
      var r := FetchParsed(MfTransactions, ex, decode);
      if r.Success? {
        mfTransactionsData := r.value;
        isDataLoading := false;
      } else {
        errorMessage := Some(r.MessageOr(FetchLabel(MfTransactions)));
        isDataLoading := false;
      }
    }

    method FetchStockTransactions(ex: Exchange<JsonRpcResponse>, decode: string -> Decoded<StockTransactionsResponse>)
      requires Valid()
      modifies this
      ensures var r := FetchParsed(StockTransactions, ex, decode);
        State() == old(State()).(isDataLoading := false,
                                 errorMessage := ErrorAfter(r, FetchLabel(StockTransactions)),
                                 stockTransactionsData := Replace(old(stockTransactionsData), r))
      ensures Valid()
    {
      isDataLoading := true;
      errorMessage := None;
      var r := FetchParsed(StockTransactions, ex, decode);
      if r.Success? {
        stockTransactionsData := r.value;
        isDataLoading := false;
      } else {
        errorMessage := Some(r.MessageOr(FetchLabel(StockTransactions)));
        isDataLoading := false;
      }
    }

    /**
     * The success callback of `getUserChats` and the `onDataChange`
     * callback of `observeUserChats`, which do the same.
     */
    method OnUserChatsSnapshot(userId: string, snapshot: UserSnapshot)
      requires Valid()
      modifies this
      ensures State() == old(State()).(userChats := Some(ChatsFromSnapshot(userId, snapshot)))
      ensures Valid()
    {
      userChats := Some(ChatsFromSnapshot(userId, snapshot));
    }

    /**
     * The failure callback of `getUserChats`, or `onCancelled` of
     * `observeUserChats` when `observing`: empty chats and an error.
     */
    method OnUserChatsFailed(userId: string, observing: bool)
      requires Valid()
      modifies this
      ensures State() == old(State()).(
        userChats := Some(EmptyChats(userId)),
        errorMessage := Some(if observing then "Failed to observe user chats" else "Failed to load user chats"))
      ensures Valid()
    {
      userChats := Some(EmptyChats(userId));
      errorMessage := Some(if observing then "Failed to observe user chats" else "Failed to load user chats");
    }

    /**
     * The success callback of `getChatMessages` and `onDataChange` of
     * `observeChatMessages`: the delivered messages replace the selected
     * session outright.
     */
    method OnChatMessagesSnapshot(sessionId: string, messages: Option<seq<(string, ChatMessage)>>)
      requires Valid()
      modifies this
      ensures State() == old(State()).(selectedChatSession := Some(DeliveredSession(sessionId, messages)))
      ensures Valid()
    {
      selectedChatSession := Some(DeliveredSession(sessionId, messages));
    }

    /** The failure callback of `getChatMessages`, or `onCancelled` of `observeChatMessages`. */
    method OnChatMessagesFailed(observing: bool)
      requires Valid()
      modifies this
      ensures State() == old(State()).(
        errorMessage := Some(if observing then "Failed to observe chat messages" else "Failed to load chat messages"))
      ensures Valid()
    {
      errorMessage := Some(if observing then "Failed to observe chat messages" else "Failed to load chat messages");
    }

    /** `sendMessage`: a logging stub that changes nothing. */
    method SendMessage(userId: string, sessionId: string, message: string)
      ensures State() == old(State())
    {
    }
  }

  /** For a consistent view model, a stored phone number is there exactly when it shows as logged in. */
  lemma StoredPhoneIffLoggedIn(vm: McpViewModel)
    requires vm.Valid()
    ensures vm.GetStoredPhoneNumber().Some? <==> vm.isLoggedIn
  {
  }
}

=== FILE: wrappers.dfy ===
/** Nullable values and Kotlin's `Result<T>`, as the app uses them. */
module Wrappers {

  /** A Kotlin nullable value: `None` stands for `null`. */
  datatype Option<+T> = None | Some(value: T) {

    /** Kotlin's elvis operator `x ?: default`. */
    function GetOr(default: T): T {
      match this
      case Some(v) => v
      case None => default
    }
  }

  /**
   * Kotlin's `Result<T>`. A failure carries the exception it was built
   * from, of which the app only ever reads `message`, which may be null.
   */
  datatype Result<+T> = Success(value: T) | Failure(message: Option<string>) {

    /** `exception.message ?: fallback`, as read by the `onFailure` handlers. */
    function MessageOr(fallback: string): string
      requires Failure?
    {
      message.GetOr(fallback)
    }
  }

  /** A failure whose exception was built from a message string. */
  function Fail<T>(message: string): Result<T> {
    Failure(Some(message))
  }
}
